=== FILE: README.md ===
# cls-bluebird: the patch and the test support that pins it down

cls-bluebird makes bluebird promises keep continuation-local-storage (CLS)
context. The patch itself (`patchBluebird` in `shim.js`) does two things:

- it checks that the namespace has a callable `bind`;
- it wraps bluebird's shared primitive `Promise.prototype._addCallbacks`. Every function among the `fulfill`, `reject` and `progress` handlers goes through `ns.bind` before bluebird sees it, so the handler later runs in the context that was active when it was attached.

The test suite checks this with a few pieces of support code:

- an instrumented `ns.bind` that logs every binding, per function and per namespace;
- validators over that log (`checkBound` and friends);
- a `Test` object whose first recorded error wins;
- a countdown callback aggregator;
- reject-status tagging of promises;
- formulas for expected handler call counts;
- the "every method is patched" and "patching keeps method equality" checks;
- a mocha shim that collapses a `describe` holding a single `it` into one test.

This project models all of these as pure Dafny functions over immutable datatypes and proves what each promises.

Modules, one per source file, plus shared ones:

| module | models |
|---|---|
| `Wrappers` | `Option` and `Result` |
| `Js` | a small JavaScript heap |
| `Cls` | handler values, contexts, the namespace |
| `Shim` | `shim.js` |
| `BindLog` | `test/support/ns.js` |
| `Checks` | `checks.js` |
| `RunTest` | `test.js` |
| `TestObject` | `ctors.js` |
| `Utils` | `utils/index.js` |
| `Helpers` | `helpers.js` |
| `Patched` | `test/init/patched.test.js` |
| `MochaShim` | `mochaShim.js` |
| `Scenarios` | the patch, the bind log and `checkBound` together |

Values are modelled at two levels:

- In the `Js` heap model, an object is a record of three things: whether it is callable, its visible properties (own and inherited, flattened) and its prototype chain (as addresses). This is enough for:
  - truthiness;
  - `typeof x === 'function'`;
  - property reads;
  - sloppy-mode property writes: a write to a primitive is silently lost, and a write to `undefined` or `null` throws a `TypeError`;
  - `instanceof`.
- The `Cls` model is used for handlers: a plain function `Fn(id)`, a function returned by `ns.bind` `Bound(id, ctx)` (which remembers its `_originalFn` and its context), or a non-function `Other`.

Two properties of `shim.js` shape the model:

- `shim.js:6-8` throws a `TypeError` whose message says the namespace must be included, when `ns.bind` is not a function.
- `shim.js` keeps no record of having patched a prototype, so a second `patchBluebird` nests a second wrapper and every handler is bound twice. This is modelled by `Shim.PatchTwiceBindsTwice`, and its effect on the suite by `Scenarios.DoublePatchFailsCheckBound`.

## Model

| member | source | states |
|---|---|---|
| Shim.Patch | shim.js:5-21 | Fails before touching the prototype when `ns` is missing or `ns.bind` is not a function. Otherwise it keeps every key of the prototype and every property other than `_addCallbacks`. It replaces `_addCallbacks` by the wrapper around the previous function. |
| Shim.RewriteArgs | shim.js:13-16 | Each of `fulfill`, `reject` and `progress` is rewritten independently: a function is replaced by `ns.bind(handler)`, bound to the active context, and anything else passes unchanged. `promise`, `receiver` and `domain` keep their values and positions. The handlers passed to `ns.bind` are exactly the function-valued ones among `fulfill`, `reject` and `progress`, in that order, so there are 0 to 3 binds. |
| Shim.Invoke | shim.js:13-18 | A call through the wrapper reaches bluebird's function with the same receiver and with `promise`, `receiver` and `domain` unchanged. An unwrapped function receives its arguments untouched. Everything passed to `ns.bind` is a function. |
| Shim.WrapperDelegates | shim.js:18 | One wrapper hands bluebird's function the same `this` and the rewritten arguments. It binds exactly as many times as there are function-valued handlers. |
| Shim.SameHandlerBoundTwice | shim.js:14-15 | `then(h, h)` binds `h` twice, once per handler position. |
| Shim.RewriteIdempotent | shim.js:14-16 | Rewriting already rewritten arguments yields arguments equal to them up to closure identity (see Cls.BindTo under Left out), with the same number of binds: an already bound handler is bound again, to the same original, and still runs in its first context. |
| Shim.PatchTwiceBindsTwice | shim.js:5-21 | With no guard against repetition, patching twice nests two wrappers. Bluebird receives arguments equal, up to closure identity (see Cls.BindTo under Left out), to those of a single patch, and every function-valued handler is bound twice. |
| Cls.BoundKeepsRegistrationContext | test/support/ns.js:33-35 | `ns.bind(fn)` returns a function attributed to `fn`'s original. When a context is active at bind time, a plain handler bound this way runs in that context, whatever context is current when it is called (for a bind outside any context see `Cls.BindTo` under Left out). Binding an already bound function again, which passes the bound closure itself to the real `bind`, leaves it running in the context of its first binding. |
| BindLog.InstrumentedBind | test/support/ns.js:22-37 | One call appends exactly one record to the `_bound` log of `fn._originalFn \|\| fn` and exactly one to `ns._bound`. The context recorded is `context \|\| ns.active`. Other functions' logs are untouched. The real `bind` receives the same `fn` and `context`, and the returned function carries the original. |
| BindLog.BindAllLogs | test/support/ns.js:25-30 | Binding a list of functions appends to `ns._bound` one record per function, in order, each attributed to its original with the active context, and keeps the earlier records. Each function's own log grows by one record per occurrence. |
| Checks.CheckIsPromise | test/support/utils/checks.js:21-25 | "Did not return promise" exactly when the value is falsy or its `then` is not a function. "Wrong constructor" exactly when `then` is callable but the value is not an instance of the utilities' constructor. No error exactly when it is an object with a callable `then` that is such an instance. |
| Checks.CheckIsPromiseAgreesWithIsPromise | test/support/utils/checks.js:21-25 | `checkIsPromise` reports "Did not return promise" exactly for the values the utilities' `isPromise` rejects, and passes exactly for promises that are instances of the utilities' constructor. |
| Checks.Expected | test/support/utils/checks.js:42 | `expectedBindings \|\| 1`: never 0, and the given count when it is not 0. |
| Checks.FindOtherContext | test/support/utils/checks.js:50-53 | Finds nothing exactly when every record has the expected context. Otherwise it gives the first record whose context differs. |
| Checks.CheckBound | test/support/utils/checks.js:39-66 | Never fails with both checks skipped. A failure of the per-function check is reported before the namespace check runs. It passes exactly when every check not skipped passes. |
| Checks.CheckBoundDefault | test/support/utils/checks.js:42-65 | With default options it passes exactly when `fn._bound` exists with one record, to `context`, and `ns._bound` holds one record, to `context`. |
| Checks.CheckBoundPasses | test/support/utils/checks.js:39-66 | For any options it passes exactly when each check not skipped finds a non-empty log. That log must have length `expectedBindings \|\| 1`, with every context equal to `context`. |
| RunTest.Call | test/support/utils/test.js:105-113 | One call of the aggregated callback counts down by one. It calls `cb` exactly when the count was 1, with the error held. A truthy error already held is never replaced. |
| RunTest.FeedFires | test/support/utils/test.js:105-113 | From any reachable state, the callback fires exactly once when the count is positive and reached within the calls. It fires on that call, with the first truthy error up to it. Otherwise it never fires. |
| RunTest.AggregatorCallsBackOnce | test/support/utils/test.js:98-113 | `callbackAggregator(n, cb)` with `n >= 1` calls `cb` once, on the n-th call, with the first truthy error among the first n calls. An early error does not make it fire sooner, and later calls are ignored. |
| RunTest.AggregatorNeverFiresWithoutCount | test/support/utils/test.js:105-113 | With a count of zero or less, `cb` is never called. |
| RunTest.ShiftArgsIdempotent | test/support/utils/test.js:29-33 | Shifting `test(fn, options)` to `('', fn, options)` is a normal form: shifting already shifted arguments changes nothing, because the name it leaves is never a function. |
| RunTest.RunMultiple | test/support/utils/test.js:54-91 | Three rounds of `_runTest` share one aggregated `done`; a round passes it the error its test function throws synchronously. The real `done` is called at most once, during the loop exactly when all three rounds threw, and every error it saw came from one of the rounds. |
| TestObject.Normalise | test/support/utils/ctors.js:53 | What `error` stores is an `Error` instance and never `undefined`. An `Error` is stored as is. |
| TestObject.ErrorAllKeepsFirst | test/support/utils/ctors.js:51-56 | After any sequence of `error` calls, the recorded error is the one recorded before, if any. Otherwise it is the first value of the sequence that is not `undefined`, wrapped in an `Error` if it is not one. Later calls change nothing. |
| TestObject.NonTestErrors | test/support/utils/ctors.js:78-81 | The members of an aggregate rejection passed on are exactly those that are not `TestError`s. |
| TestObject.FirstNonTestErrorRecorded | test/support/utils/ctors.js:79-81 | The members of an aggregate are passed to `error` in their order, so the error recorded from them is the first member that is neither a `TestError` nor `undefined`. |
| TestObject.Done | test/support/utils/ctors.js:65-87 | `_done` is called with exactly the error recorded at the end. |
| TestObject.DonePasses | test/support/utils/ctors.js:65-87 | `done` reports success exactly when three things hold: nothing was recorded before, `final` registers nothing, and the promise settled as its tag says. Untagged means fulfilled. Tagged means rejected only with `TestError`s, per member of an acceptable aggregate. |
| TestObject.FinalErrorWins | test/support/utils/ctors.js:70-74 | An error registered by `final` takes precedence over anything the classification finds. |
| TestObject.TaggedFulfilmentFails | test/support/utils/ctors.js:69-72 | A fulfilled promise tagged as rejecting fails with "Promise should not be resolved". |
| TestObject.EmptyRejection | test/support/utils/ctors.js:76-77 | An untagged promise rejected with a falsy reason fails with "Empty rejection". |
| Utils.RunSuccessive | test/support/utils/index.js:40-57 | Each `runInContext` call gives its context the current counter as `_id` and advances it, so successive calls from a counter hand out `start, start+1, ...`, strictly increasing, and leave the counter at `start + n`. |
| Utils.PromisesAreObjects | test/support/utils/index.js:85-87 | `isPromise` holds only for objects: no primitive has a callable `then`. |
| Utils.BluebirdCtorHasPrimitive | test/support/utils/index.js:104-106 | A value `isBluebirdCtor` accepts is a constructor whose prototype is an object carrying a callable `_addCallbacks`, the primitive `shim.js` wraps. |
| Utils.IsBluebirdPromiseAsWritten | test/support/utils/index.js:94-97 | As written, it throws exactly for `undefined` and `null`. For anything else it answers `isBluebirdCtor(value.constructor)`, whether or not the value is a promise. |
| Utils.IsBluebirdPromise | test/support/utils/index.js:89-97 | With the guard calling `isPromise(value)`, it holds only for promise objects, and on promises it agrees with the code as written. |
| Utils.IsBluebirdPromiseGuardNeverFires | test/support/utils/index.js:95 | A plain object without `then`, whose `constructor` is a bluebird constructor, is reported as a bluebird promise, and `null` throws. The intended check rejects both. |
| Utils.SetRejectStatus | test/support/utils/index.js:144-147 | Returns its argument and tags an object so that `getRejectStatus` is true. It throws for `undefined` and `null`, and is silently lost on other primitives. No other object changes. |
| Utils.InheritRejectStatus | test/support/utils/index.js:155-158 | Returns `target`. A truthy target gets `getRejectStatus(source)`; a falsy one is left alone. No other object changes. |
| Helpers.HandlerPropReadsSubstitute | test/support/utils/helpers.js:28 | `if (!handler) handler = function() {}`: the markers the formulas read come from the handler when there is one, and otherwise from a fresh function allocated at an unused address. |
| Helpers.StaticArrayNumHandlerCalls | test/support/utils/helpers.js:25-46 | The result is 1 or 3. It is 1 whenever `handler._throws` or `options.oneCallback` holds. For a missing handler, or one neither tagged as rejecting nor throwing, it is 3 unless `oneCallback` is set. |
| Helpers.ProtoArrayNumHandlerCalls | test/support/utils/helpers.js:64-89 | The result is 1 or 3. It is 1 whenever `handler._throws` or `options.oneCallback` holds. For a missing handler it is 3 unless `oneCallback` is set. |
| Helpers.ProtoRefinesStatic | test/support/utils/helpers.js:70-86 | The prototype and static formulas agree whenever `makePromise._async \|\| !attach._async`, and on every node version other than 0.10. The prototype formula predicts one call only where the static one does. |
| Helpers.SetRejectStatusEnablesSuppression | test/support/utils/helpers.js:105-113 | For a promise, the reject-status tag switches suppression on. An untagged promise is never suppressed. Once `setRejectStatus` has tagged it, it is suppressed exactly when its constructor is not the utilities' own and `makeValue` is neither `_array` nor `_async`. |
| Helpers.WrapHandler | test/support/utils/helpers.js:124-134 | `wrapHandler` returns a new function with the handler's reject status and leaves every existing object unchanged. |
| Helpers.WrappedHandlerStandsInForHandler | test/support/utils/helpers.js:115-134 | The wrapped handler runs `wrapper` (with the global object as `this`), then behaves as the handler: the receiver it was called with, or the global object in place of `undefined` or `null` (sloppy mode); the same arguments; same result, or `undefined` when there is no handler. It counts as rejecting exactly when the handler does. |
| Patched.SortedKeys | test/init/patched.test.js:155 | `Object.keys(obj).sort()` lists exactly the keys, in strictly increasing string order. |
| Patched.SortedListingUnique | test/init/patched.test.js:155 | A strictly sorted listing of a key set is unique, so the sort is determined by the keys alone. |
| Patched.Others | test/init/patched.test.js:165-173 | The inner loop collects exactly the strictly greater keys holding the identical function. |
| Patched.OthersSorted | test/init/patched.test.js:165-173 | Those keys come out in increasing order. |
| Patched.GroupsAsWritten | test/init/patched.test.js:159-179 | Every emitted group has at least two keys and starts at a key of the outer loop. |
| Patched.GroupShape | test/init/patched.test.js:164-178 | A function key's group is the key followed by every strictly greater key holding the identical function, in increasing order. It has two or more keys exactly when such a key exists. |
| Patched.GetEqualsGroups | test/init/patched.test.js:154-182 | Every group of `getEquals` starts at a function-valued key, is sorted, has at least two keys, and continues with exactly its later aliases. A group starts at a key exactly when that key holds a function with a later alias. |
| Patched.GroupsDependOnAliasing | test/init/patched.test.js:154-182 | `getEquals` depends only on the keys, which of them hold functions, and which functions are identical. |
| Patched.CheckEqualPassesWhenAliasingKept | test/init/patched.test.js:139-144 | `checkEqual` passes whenever patching keeps the key set and the identity relation among function values. |
| Patched.WrappingPerFunctionKeepsEquality | test/init/patched.test.js:100-108 | Replacing each distinct function by its own wrapper, shared by its aliases, keeps method equality. |
| Patched.GroupsIntended | test/init/patched.test.js:159-179 | With the skip testing `matched`, every emitted group has at least two keys and starts at a key not yet matched. |
| Patched.GetEqualsIntendedDisjoint | test/init/patched.test.js:162 | With the intended skip, no key appears in two groups. |
| Patched.ThreeAliasesOverlap | test/init/patched.test.js:162 | Three keys `a`, `b`, `c` holding one function give `[[a,b,c],[b,c]]` as written, and `[[a,b,c]]` with the intended skip. |
| Patched.CheckPatched | test/init/patched.test.js:120-130 | One test per method whose name does not match `^[A-Z_]`, is not in `ignore`, and holds a function. Each test is named after its method and passes exactly when the method is marked `__wrapped`. |
| Patched.CheckPatchedSingle | test/init/patched.test.js:121-128 | A single property yields exactly its own test when it is checked, and nothing otherwise. |
| Patched.CheckPatchedInOrder | test/init/patched.test.js:121-129 | Tests are registered in the order `_.forIn` visits the properties: the tests for a listing split in two are those of the first part followed by those of the second. |
| Patched.CheckPatchedAllPass | test/init/patched.test.js:120-130 | All registered tests pass exactly when every checked method is marked `__wrapped`. |
| MochaShim.InstallAllKeepsFirst | test/support/mochaShim.js:25-39 | However often the shim is loaded, the globals are those of the first installation: once `describe.__shimmed` is set nothing is replaced again. |
| MochaShim.ShimLoadsAsWritten | test/support/mochaShim.js:25-69 | However often the file is loaded, at least once, the hook globals are exactly those of `HookTableAsWritten`: `beforeEach` dispatches to the `afterEach` recorder and `afterEach` is mocha's own. Loaded zero times, the globals stay unshimmed. |
| MochaShim.Collect | test/support/mochaShim.js:72-77 | While a describe body runs, each call is either recorded or, for a hook global that was never replaced, registered at once. |
| MochaShim.SingleItCollapses | test/support/mochaShim.js:80-88 | A describe whose body is a single `it` is registered as one test when three things hold: `noCollapse` is off, the method names are compatible, and the test is named `name + ' ' + itName` (just `name` for an empty `itName`). The test inherits the `it`'s method name when the describe has none. |
| MochaShim.UntitledItKeepsName | test/support/mochaShim.js:42-45 | `it(fn)` shifts the function over and takes the title `''`, so a lone `it(fn)` collapses to a test carrying the describe's name unchanged. |
| MochaShim.IncompatibleMethodsKeepSuite | test/support/mochaShim.js:80-97 | A lone `it` whose method name differs from the describe's keeps the suite, with the `it` inside it. |
| MochaShim.NoCollapseKeepsSuite | test/support/mochaShim.js:80-92 | With `noCollapse` the describe is always registered as a suite of its own name and method. |
| MochaShim.RunKeepsLeaves | test/support/mochaShim.js:72-98 | Every test and hook function a test file passes reaches mocha exactly once, each hook with the kind its global dispatches to. When every hook global records, they arrive in the order the file passed them, through any nesting of describes. |
| MochaShim.IntendedRunKeepsHooks | test/support/mochaShim.js:51-69 | With each hook global bound to the recorder of its own kind (`HookTableIntended`), mocha receives exactly the functions the file passes, in order, each hook with the kind it was passed as. |
| MochaShim.AsWrittenNeverRegistersBeforeEach | test/support/mochaShim.js:56-69 | As written, no `beforeEach` hook ever reaches mocha, wherever the file calls `beforeEach`. |
| MochaShim.EscapedHookJoinsEnclosingSuite | test/support/mochaShim.js:66-69 | A hook whose global was never replaced registers beside the describe, in the enclosing suite, not inside it. |
| MochaShim.RecordersRegisterOnce | test/support/mochaShim.js:72-98 | When every hook global records, a describe registers exactly one thing: its test or its suite. |
| MochaShim.BeforeEachBecomesAfterEach | test/support/mochaShim.js:56-69 | As written, `beforeEach` inside a describe registers an `afterEach` hook of that suite. |
| MochaShim.AfterEachEscapesSuite | test/support/mochaShim.js:66 | As written, `afterEach` inside a describe registers in the enclosing suite, ahead of the describe. |
| MochaShim.IntendedBeforeEachStays | test/support/mochaShim.js:56-59 | With the intended bindings, `beforeEach` inside a describe stays a `beforeEach` hook of that suite. |
| Scenarios.ThenInContextPassesCheckBound | shim.js:12-20 | After the namespace's `ns._bound` reset, a fresh handler attached once with `then` inside context `c`, on a prototype patched once, passes `checkBound(handler, c)` with default options, and runs in `c` whatever context is current when bluebird calls it. |
| Scenarios.SameHandlerTwiceNeedsTwoBindings | shim.js:14-15 | `then(h, h)` binds `h` twice to `c`, so `checkBound` passes with `expectedBindings: 2` and fails with the default, reporting 2 bindings. |
| Scenarios.OtherContextFailsCheckBound | test/support/utils/checks.js:50-53 | A handler attached inside `c` fails `checkBound` against any other context, reporting both contexts. |
| Scenarios.DoublePatchFailsCheckBound | shim.js:5-21 | After two patches, a single `then(h)` binds `h` twice, so the default `checkBound` fails with "bound wrong number of times (2)". The handler still runs in `c`. |
| Scenarios.RunContextNeedsPatch | test/support/utils/checks.js:86-89 | A handler attached with `then` inside `c` passes `checkRunContext(c)` through the patched `_addCallbacks`, whatever context is ambient when it runs. Through bluebird's own `_addCallbacks` it passes only when the ambient context is `c`. |
| Scenarios.NotBoundOnlyWithoutPatch | test/support/utils/checks.js:75-77 | After `then(h)` inside `c`, `checkNotBound(h)` passes when `_addCallbacks` is bluebird's own, and fails with "Function bound" once the prototype is patched. |

## Left out

- The `shimmer` library's wrapping mechanics (`__wrapped`, `__original`, property descriptors): wrapping is modelled as replacing a prototype property by a wrapper. `Patched.CheckPatched` takes the `__wrapped` mark as data.
- `require('bluebird')`, bluebird's internals and the library's `lib/` entry point. `lib/` is not part of this model, so the v2/v3 dispatch, the cancellation and coroutine scheduler hooks, and the error messages they produce are not modelled beyond what `shim.js` does.
- The return value of bluebird's `_addCallbacks`: the model returns the call it receives (`Shim.NativeCall`). That call is what the wrapper's result is made of, since the wrapper returns the original's result unchanged.
- continuation-local-storage beyond `active` and `bind`: entering and leaving contexts, `ns.run` and `ns.set` belong to that library. A context is an identity `Ctx(id)`, and "no active context" is `None`. `runInContext` is reduced to its id counter, and `runAndReturn` to passing the return value through (the model does not track it).
- Cls.BindTo: bound functions are compared up to closure identity. Two binds of the same function to the same context give equal values, and binding a bound function again gives a value equal to it, where JavaScript creates a new closure each time. No check in the suite compares bound functions by identity. With no context given and none active, continuation-local-storage's `bind` creates a fresh context and enters it; the model binds to `None` instead. A handler bound outside any context therefore observes no context in the model, where JavaScript gives it a fresh one, so `checkRunContext(null)` in such a handler fails in JavaScript but passes in the model. The scenarios that check run contexts all bind under an active context.
- BindLog.InstrumentedBind: defined for functions only, as every caller in the suite binds functions. `ns.bind` on a non-function is library behaviour.
- Checks.CheckBound: the namespace-log half compares contexts only, as the code does. Its failure message says "wrong function or context", but the function recorded in `ns._bound` is never compared.
- Asynchrony: `awaitPromise`'s `setImmediate` polling, the scheduling of `then` callbacks, and promise settlement itself. `TestObject.Done` takes the settlement and the errors `final` registers as inputs. `RunTest.RunMultiple` covers only what happens synchronously during the loop; later asynchronous `done` calls are covered by `RunTest.AggregatorCallsBackOnce`.
- `suppressUnhandledRejections` (`index.js:166-172`) attaches a rejection handler through `then`. Only the decision to call it is modelled, as the predicate `Helpers.SuppressesUnhandledRejection`; its properties are stated by `Helpers.SuppressOnlyTaggedForeignPromises` and `Helpers.SetRejectStatusEnablesSuppression`.
- Patched.SortedKeys: compares keys by Unicode code point, where `Array.prototype.sort` compares UTF-16 code units. The two orders differ only for keys holding characters above U+FFFF.
- Helpers.Invoke: a `wrapper` or `handler` that throws is not modelled; the call sequence assumes both return. A primitive receiver other than `undefined` and `null` is passed on as is, where sloppy mode would box it into a wrapper object.
- TestObject.Done: a `final` that throws is not modelled. In JavaScript it would leave `_done` uncalled (`ctors.js:70,74`).
- JavaScript values beyond what the checks read: no numbers beyond integers, no `NaN`, no getters, and no `Symbol`s. An object's inherited properties are flattened into its visible properties, and its prototype chain is a list of addresses. A write such as `Utils.SetRejectStatus` or `Utils.InheritRejectStatus` therefore changes only the object written: objects that inherit from it would, in JavaScript, also start to read the tag, and the model does not show this.
- `new Error(x)` keeps `x` only as a message (`TestObject.StringOf`). Stack traces and the `name` property of `TestError` are not modelled.
- MochaShim: mocha's own registration is the output of the model (`MochaShim.Reg`), not executed.
  - A describe body that throws is not modelled.
  - Pending tests (`it` without a function) are tests with some function identity.
  - The hook's `name` argument that the replay passes as `undefined` is not modelled.
  - The property copying of `createReplacement` is reduced to the method name (`only`, `skip`) it passes as the last argument.
  - `ItTitle` is a string, so titles that are falsy non-strings are not modelled.
- `test/support/catchRejections.js` (process events, console output) and `test/support/index.js` (environment and node-version parsing, library copies).
- The suite-registration glue (`describeSets.js`, `tests.js`, `testSets/*.js`) and the test files under `test/methods/`. They enumerate mocha `describe`/`it` combinations over live promises.
- RunTest.ShiftArgs: whether a value is a function is read from the heap model. The `test` and `testMultiple` wrappers that register the mocha `it` around `_runTest` are not modelled separately.

## Findings

| source | as written | input that shows it | evidently intended | confidence | as-written member | corrected member |
|---|---|---|---|---|---|---|
| test/support/utils/index.js:95 | `if (!this.isPromise) return false;` tests the method itself, which is always truthy | a plain object `{constructor: Promise}` without `then` is reported as a bluebird promise; `null` throws a `TypeError` reading `.constructor` | `if (!this.isPromise(value)) return false;` | not executed | Utils.IsBluebirdPromiseAsWritten, Utils.IsBluebirdPromiseGuardNeverFires | Utils.IsBluebirdPromise |
| test/init/patched.test.js:162 | `if (matches.indexOf(key) !== -1) return;` searches `matches`, an array of arrays, for a string, so it never skips | three keys `a`, `b`, `c` holding one function give `[[a,b,c],[b,c]]`: `b` and `c` appear twice | test `matched`, the keys already placed in a group, giving `[[a,b,c]]` with every key in at most one group | not executed | Patched.GroupsAsWritten, Patched.ThreeAliasesOverlap | Patched.GroupsIntended, Patched.GetEqualsIntendedDisjoint |
| test/support/mochaShim.js:66 | `beforeEach = createReplacement(afterEach, ...)` assigns the `afterEach` replacement to `beforeEach`, and `afterEach` is never replaced | `describe('s', () => { beforeEach(f); it('a', g); it('b', k); })` registers `f` as an `afterEach` hook; `afterEach(f)` inside a describe registers in the enclosing suite | `afterEach = createReplacement(afterEach, ...)` | not executed | MochaShim.HookTableAsWritten, MochaShim.BeforeEachBecomesAfterEach, MochaShim.AfterEachEscapesSuite, MochaShim.AsWrittenNeverRegistersBeforeEach | MochaShim.HookTableIntended, MochaShim.IntendedRunKeepsHooks, MochaShim.IntendedBeforeEachStays |

=== FILE: bind_log.dfy ===
/**
 * The test namespace's instrumented `bind`: every binding is logged on the
 * original function (`fn._bound`) and on the namespace (`ns._bound`) before the
 * real `bind` runs; the namespace log is emptied before every test.
 */
module BindLog {
  import opened Wrappers
  import opened Cls

  /** One `{fn, context}` entry of `ns._bound`. */
  datatype NsRecord = NsRecord(fn: nat, context: Option<Ctx>)

  /**
   * `perFn[id]` is the `_bound` array of function `id` (each `{ns, context}` entry
   * reduced to its context: the namespace is always the same one); a function
   * absent from `perFn` has no `_bound`. `nsBound` is `ns._bound`.
   */
  datatype Log = Log(perFn: map<nat, seq<Option<Ctx>>>, nsBound: seq<NsRecord>)

  /** The call passed on to the real `bind`. */
  datatype BindCall = BindCall(fn: Value, context: Option<Ctx>)

  datatype BindOutcome = BindOutcome(log: Log, delegated: BindCall, bound: Value)

  /** The entries of function `id`'s `_bound` array, empty when it has none. */
  function FnLog(log: Log, id: nat): seq<Option<Ctx>> {
    if id in log.perFn then log.perFn[id] else []
  }

  /** `context || ns.active` */
  function Recorded(active: Option<Ctx>, context: Option<Ctx>): Option<Ctx> {
    if context.Some? then context else active
  }

  /**
   * The wrapped `ns.bind(fn, context)` while `active` is the namespace's active
   * context. Callers in this model only ever bind functions.
   */
  function InstrumentedBind(log: Log, active: Option<Ctx>, fn: Value, context: Option<Ctx>): (r: BindOutcome)
    requires IsFunction(fn)
    ensures var o := OriginalOf(fn);
      && r.log.perFn.Keys == log.perFn.Keys + {o}
      && FnLog(r.log, o) == FnLog(log, o) + [Recorded(active, context)]
      && (forall id :: id != o ==> FnLog(r.log, id) == FnLog(log, id))
      && r.log.nsBound == log.nsBound + [NsRecord(o, Recorded(active, context))]
    ensures r.delegated == BindCall(fn, context)
    ensures IsFunction(r.bound) && OriginalOf(r.bound) == OriginalOf(fn)
    ensures r.bound == BindTo(active, fn, context)
  {
    var original := OriginalOf(fn);
    var c := Recorded(active, context);
    var perFn := log.perFn[original := FnLog(log, original) + [c]];
    BindOutcome(Log(perFn, log.nsBound + [NsRecord(original, c)]), BindCall(fn, context), BindTo(active, fn, context))
  }

  /** The `beforeEach` hook: `ns._bound = []`; the per-function logs are kept. */
  function Reset(log: Log): (r: Log)
    ensures r.nsBound == [] && r.perFn == log.perFn
  {
    log.(nsBound := [])
  }

  /** How many of `fns` stand for the original function `id`. */
  function CountOriginal(fns: seq<Value>, id: nat): (n: nat)
    requires forall v :: v in fns ==> IsFunction(v)
    ensures n <= |fns|
  {
    if fns == [] then 0
    else (if OriginalOf(fns[0]) == id then 1 else 0) + CountOriginal(fns[1..], id)
  }

  /** Binds every function of `fns` in turn, with no explicit context, while `active` is active. */
  function BindAll(log: Log, active: Option<Ctx>, fns: seq<Value>): Log
    requires forall v :: v in fns ==> IsFunction(v)
    decreases |fns|
  {
    if fns == [] then log
    else BindAll(InstrumentedBind(log, active, fns[0], None).log, active, fns[1..])
  }

  /**
   * Binding a list of functions appends one namespace record per function and,
   * to each function's own log, one record per occurrence of it in the list, all
   * holding the context active at bind time.
   */
  lemma {:induction false} BindAllLogs(log: Log, active: Option<Ctx>, fns: seq<Value>)
    requires forall v :: v in fns ==> IsFunction(v)
    ensures |BindAll(log, active, fns).nsBound| == |log.nsBound| + |fns|
    ensures BindAll(log, active, fns).nsBound[..|log.nsBound|] == log.nsBound
    ensures forall i :: |log.nsBound| <= i < |BindAll(log, active, fns).nsBound| ==>
      BindAll(log, active, fns).nsBound[i] == NsRecord(OriginalOf(fns[i - |log.nsBound|]), active)
    ensures forall id ::
      FnLog(BindAll(log, active, fns), id) == FnLog(log, id) + seq(CountOriginal(fns, id), _ => active)
    decreases |fns|
  {
    if fns != [] {
      var next := InstrumentedBind(log, active, fns[0], None).log;
      BindAllLogs(next, active, fns[1..]);
      var r := BindAll(log, active, fns);
      assert r == BindAll(next, active, fns[1..]);
      forall i | |log.nsBound| <= i < |r.nsBound|
        ensures r.nsBound[i] == NsRecord(OriginalOf(fns[i - |log.nsBound|]), active)
      {
        if i == |log.nsBound| {
          assert r.nsBound[..|next.nsBound|] == next.nsBound;
          assert r.nsBound[i] == next.nsBound[i];
        } else {
          assert fns[1..][i - |next.nsBound|] == fns[i - |log.nsBound|];
        }
      }
      assert r.nsBound[..|log.nsBound|] == r.nsBound[..|next.nsBound|][..|log.nsBound|];
      forall id ensures FnLog(r, id) == FnLog(log, id) + seq(CountOriginal(fns, id), _ => active) {
        var k := CountOriginal(fns[1..], id);
        if OriginalOf(fns[0]) == id {
          assert seq(k + 1, _ => active) == [active] + seq(k, _ => active);
        }
      }
    }
  }
}

=== FILE: checks.dfy ===
/**
 * The validators mixed into the test utilities: each returns an error, or
 * nothing (`undefined`) when the checked condition holds.
 */
module Checks {
  import opened Wrappers
  import opened Cls
  import Js
  import opened BindLog
  import Utils

  datatype CheckError =
    | DidNotReturnPromise
    | WrongConstructor
    | FunctionNotBound
    | BoundWrongNumberOfTimes(count: nat)
    | BoundToWrongContext(expected: Option<Ctx>, got: Option<Ctx>)
    | NoBindingOccurred
    | WrongNumberOfBindings(count: nat)
    | BoundToWrongFunctionOrContext(expected: Option<Ctx>, got: Option<Ctx>)
    | FunctionBound
    | RunInWrongContext(expected: Option<Ctx>, got: Option<Ctx>)

  /**
   * `checkIsPromise(promise)` against the utilities' main constructor `ctor`:
   * fails unless the value is truthy with a callable `then`, then fails unless it
   * is an instance of `ctor`.
   */
  function CheckIsPromise(h: Js.Heap, promise: Js.Val, ctor: Js.Val): (r: Option<CheckError>)
    requires Js.IsConstructor(h, ctor)
    ensures r == Some(DidNotReturnPromise) <==>
      !Js.Truthy(promise) || !Js.IsFunction(h, Js.Get(h, promise, "then"))
    ensures r == Some(WrongConstructor) <==>
      Js.Truthy(promise) && Js.IsFunction(h, Js.Get(h, promise, "then")) && !Js.InstanceOf(h, promise, ctor)
    ensures r.None? <==> promise.Ref? && Js.IsFunction(h, Js.Get(h, promise, "then")) && Js.InstanceOf(h, promise, ctor)
  {
    if !Js.Truthy(promise) || !Js.IsFunction(h, Js.Get(h, promise, "then")) then Some(DidNotReturnPromise)
    else if !Js.InstanceOf(h, promise, ctor) then Some(WrongConstructor)
    else None
  }

  /**
   * `checkIsPromise` and the utilities' `isPromise` agree: the first error is
   * reported exactly for the values `isPromise` rejects, and the check passes
   * exactly for promises that are instances of the utilities' constructor.
   */
  lemma CheckIsPromiseAgreesWithIsPromise(h: Js.Heap, promise: Js.Val, ctor: Js.Val)
    requires Js.IsConstructor(h, ctor)
    ensures CheckIsPromise(h, promise, ctor) == Some(DidNotReturnPromise) <==> !Utils.IsPromise(h, promise)
    ensures CheckIsPromise(h, promise, ctor).None? <==> Utils.IsPromise(h, promise) && Js.InstanceOf(h, promise, ctor)
  {
  }

  /** The options of `checkBound`; `expectedBindings` 0 stands for an absent (falsy) value. */
  datatype BoundOptions = BoundOptions(expectedBindings: int, bindIndirect: bool, noIndirect: bool)

  const DefaultOptions := BoundOptions(0, false, false)

  /** `options.expectedBindings || 1` */
  function Expected(o: BoundOptions): (n: int)
    ensures n != 0
    ensures o.expectedBindings != 0 ==> n == o.expectedBindings
  {
    if o.expectedBindings == 0 then 1 else o.expectedBindings
  }

  /** `fn._bound`: only a plain function that has been bound has the array. */
  function BoundArray(log: Log, fn: Value): Option<seq<Option<Ctx>>> {
    if fn.Fn? && fn.id in log.perFn then Some(log.perFn[fn.id]) else None
  }

  /** Every recorded context is `context`. */
  ghost predicate AllBoundTo(cs: seq<Option<Ctx>>, context: Option<Ctx>) {
    forall i :: 0 <= i < |cs| ==> cs[i] == context
  }

  /** Lodash `_.find(records, r => r.context !== context)`, as an index. */
  function FindOtherContext(cs: seq<Option<Ctx>>, context: Option<Ctx>): (r: Option<nat>)
    ensures r.None? <==> AllBoundTo(cs, context)
    ensures r.Some? ==> r.value < |cs| && cs[r.value] != context && AllBoundTo(cs[..r.value], context)
  {
    if cs == [] then None
    else if cs[0] != context then Some(0)
    else
      var rest := FindOtherContext(cs[1..], context);
      if rest.None? then None else Some(rest.value + 1)
  }

  function NsContexts(rs: seq<NsRecord>): (cs: seq<Option<Ctx>>)
    ensures |cs| == |rs| && forall i :: 0 <= i < |rs| ==> cs[i] == rs[i].context
  {
    seq(|rs|, i requires 0 <= i < |rs| => rs[i].context)
  }

  /** The direct half of `checkBound`: the function's own `_bound` array. */
  function CheckDirect(log: Log, fn: Value, context: Option<Ctx>, expected: int): Option<CheckError> {
    var bound := BoundArray(log, fn);
    if bound.None? || |bound.value| == 0 then Some(FunctionNotBound)
    else if |bound.value| != expected then Some(BoundWrongNumberOfTimes(|bound.value|))
    else
      var wrong := FindOtherContext(bound.value, context);
      if wrong.Some? then Some(BoundToWrongContext(context, bound.value[wrong.value])) else None
  }

  /** The indirect half of `checkBound`: the namespace's `_bound` array. */
  function CheckIndirect(log: Log, context: Option<Ctx>, expected: int): Option<CheckError> {
    var cs := NsContexts(log.nsBound);
    if |cs| == 0 then Some(NoBindingOccurred)
    else if |cs| != expected then Some(WrongNumberOfBindings(|cs|))
    else
      var wrong := FindOtherContext(cs, context);
      if wrong.Some? then Some(BoundToWrongFunctionOrContext(context, cs[wrong.value])) else None
  }

  /**
   * `checkBound(fn, context, options)`: the per-function check unless
   * `bindIndirect`, then the namespace check unless `noIndirect`; the first
   * failing condition is reported.
   */
  function CheckBound(log: Log, fn: Value, context: Option<Ctx>, o: BoundOptions): (r: Option<CheckError>)
    ensures o.bindIndirect && o.noIndirect ==> r.None?
    ensures !o.bindIndirect && CheckDirect(log, fn, context, Expected(o)).Some? ==>
      r == CheckDirect(log, fn, context, Expected(o))
    ensures r.None? <==>
      (o.bindIndirect || CheckDirect(log, fn, context, Expected(o)).None?) &&
      (o.noIndirect || CheckIndirect(log, context, Expected(o)).None?)
  {
    var expected := Expected(o);
    var direct := if o.bindIndirect then None else CheckDirect(log, fn, context, expected);
    if direct.Some? then direct
    else if o.noIndirect then None
    else CheckIndirect(log, context, expected)
  }

  /**
   * With default options `checkBound` passes exactly when the function was bound
   * exactly once, to `context`, and the namespace recorded exactly one binding,
   * to `context`.
   */
  lemma CheckBoundDefault(log: Log, fn: Value, context: Option<Ctx>)
    ensures CheckBound(log, fn, context, DefaultOptions).None? <==>
      && BoundArray(log, fn).Some?
      && |BoundArray(log, fn).value| == 1
      && AllBoundTo(BoundArray(log, fn).value, context)
      && |log.nsBound| == 1
      && log.nsBound[0].context == context
  {
    var cs := NsContexts(log.nsBound);
    if |cs| == 1 {
      assert AllBoundTo(cs, context) <==> cs[0] == context;
    }
  }

  /**
   * In general `checkBound` passes exactly when each check not skipped finds a
   * non-empty log of the expected length whose every context is `context`.
   */
  lemma CheckBoundPasses(log: Log, fn: Value, context: Option<Ctx>, o: BoundOptions)
    ensures CheckBound(log, fn, context, o).None? <==>
      && (o.bindIndirect ||
           (BoundArray(log, fn).Some? && |BoundArray(log, fn).value| == Expected(o) != 0
            && AllBoundTo(BoundArray(log, fn).value, context)))
      && (o.noIndirect ||
           (|log.nsBound| == Expected(o) && |log.nsBound| > 0
            && AllBoundTo(NsContexts(log.nsBound), context)))
  {
  }

  /** `checkNotBound(fn)`: fails exactly when `fn` has a `_bound` array, even an empty one. */
  function CheckNotBound(log: Log, fn: Value): (r: Option<CheckError>)
    ensures r.Some? <==> fn.Fn? && fn.id in log.perFn
    ensures r.Some? ==> r == Some(FunctionBound)
  {
    if BoundArray(log, fn).Some? then Some(FunctionBound) else None
  }

  /** `checkRunContext(context)`: fails exactly when the active context is not `context`. */
  function CheckRunContext(active: Option<Ctx>, context: Option<Ctx>): (r: Option<CheckError>)
    ensures r.None? <==> active == context
    ensures r.Some? ==> r == Some(RunInWrongContext(context, active))
  {
    if active != context then Some(RunInWrongContext(context, active)) else None
  }
}

=== FILE: cls.dfy ===
/**
 * The continuation-local-storage namespace as the interception layer sees it:
 * contexts, handler values, and the namespace's `active` context and `bind`.
 */
module Cls {
  import opened Wrappers

  /** A CLS context, compared by identity. */
  datatype Ctx = Ctx(id: nat)

  /**
   * A value in a handler position of bluebird's `_addCallbacks`: a plain function,
   * a function returned by the namespace's `bind` (remembering the function it
   * was made from and the context that function runs in), or any non-function
   * value. Closures are compared up to identity: two bound functions with the same
   * original and context are the same value here.
   */
  datatype Value = Fn(id: nat) | Bound(id: nat, ctx: Option<Ctx>) | Other

  /** `typeof v === 'function'` */
  predicate IsFunction(v: Value) {
    v.Fn? || v.Bound?
  }

  /**
   * The function a value stands for: a bound function carries `_originalFn`,
   * a plain function is its own original.
   */
  function OriginalOf(v: Value): nat
    requires IsFunction(v)
  {
    match v
    case Fn(id) => id
    case Bound(id, _) => id
  }

  /** The namespace object: its currently active context and its `bind` property. */
  datatype Namespace = Namespace(active: Option<Ctx>, bind: Value)

  /**
   * `ns.bind(fn, context)`: a new function that enters `context` when one is given,
   * otherwise the context active at bind time, and then calls `fn`, attributed to
   * `fn`'s original. Binding an already bound function nests the closures: the
   * inner one enters its own context last, so the original keeps running in the
   * context of the innermost binding. With no context given and none active
   * the real `bind` enters a freshly created context; here that binding is `None`.
   */
  function BindTo(active: Option<Ctx>, fn: Value, context: Option<Ctx>): (r: Value)
    requires IsFunction(fn)
    ensures IsFunction(r) && OriginalOf(r) == OriginalOf(fn)
    ensures r.Bound? && r.ctx == (if fn.Bound? then fn.ctx else if context.Some? then context else active)
  {
    var entered := if context.Some? then context else active;
    Bound(OriginalOf(fn), if fn.Bound? then fn.ctx else entered)
  }

  /**
   * The context active while the original function behind `v` runs when `v` is
   * invoked with `ambient` active: a bound function runs it in the context it
   * was bound to, anything else in whatever is ambient.
   */
  function ObservedContext(v: Value, ambient: Option<Ctx>): Option<Ctx> {
    if v.Bound? then v.ctx else ambient
  }

  /**
   * A plain function bound under one context observes that context whatever
   * context is ambient when it runs; a function bound again keeps observing the
   * context of its first binding.
   */
  lemma BoundKeepsRegistrationContext(active: Option<Ctx>, fn: Value, ambient: Option<Ctx>)
    requires IsFunction(fn)
    ensures fn.Fn? ==> ObservedContext(BindTo(active, fn, None), ambient) == active
    ensures fn.Bound? ==> ObservedContext(BindTo(active, fn, None), ambient) == ObservedContext(fn, ambient)
  {
  }
}

=== FILE: helpers.dfy ===
/**
 * Helper functions of the test utilities: the expected number of handler calls
 * for array methods, the condition for suppressing an unhandled rejection, and
 * `wrapHandler`.
 */
module Helpers {
  import Js
  import Utils

  /** The `options` fields the call-count formulas read. */
  datatype CountOptions = CountOptions(series: bool, oneCallback: bool)

  /** `handler[key]`, where a missing handler has been replaced by a fresh no-op function. */
  function HandlerProp(h: Js.Heap, handler: Js.Val, key: string): (r: Js.Val)
    ensures !Js.Truthy(handler) ==> r == Js.Undefined
  {
    if Js.Truthy(handler) then Js.Get(h, handler, key) else Js.Undefined
  }

  /**
   * `handler || function() {}`: reading a marker through `HandlerProp` is reading
   * it from the handler when there is one, and otherwise from a fresh function
   * allocated at an unused address.
   */
  lemma HandlerPropReadsSubstitute(h: Js.Heap, handler: Js.Val, key: string, free: nat)
    requires free !in h
    ensures Js.Truthy(handler) ==> HandlerProp(h, handler, key) == Js.Get(h, handler, key)
    ensures !Js.Truthy(handler) ==>
      HandlerProp(h, handler, key) == Js.Get(h[free := Js.Object(true, map[], [])], Js.Ref(free), key)
  {
  }

  /** `u.getRejectStatus(handler)` after the substitution: a fresh function carries no tag. */
  predicate HandlerRejects(h: Js.Heap, handler: Js.Val) {
    Js.Truthy(handler) && Utils.GetRejectStatus(h, handler)
  }

  /** The branch shared by both formulas, up to the node-0.10 sub-condition `node010`. */
  predicate OneCall(h: Js.Heap, ctor: Js.Val, handler: Js.Val, o: CountOptions, node010: bool) {
    || Js.Truthy(HandlerProp(h, handler, "_throws"))
    || o.oneCallback
    || (HandlerRejects(h, handler)
        && (o.series
            || (!Js.Truthy(HandlerProp(h, handler, "_async"))
                && (HandlerProp(h, handler, "_constructor") == ctor || node010))))
  }

  /**
   * `helperStaticArrayNumHandlerCalls(makeValue, handler, options)` for the
   * utilities' constructor `ctor` on node version `nodeVersion`.
   */
  function StaticArrayNumHandlerCalls(h: Js.Heap, ctor: Js.Val, nodeVersion: string,
                                      makeValue: Js.Val, handler: Js.Val, o: CountOptions): (n: nat)
    ensures n == 1 || n == 3
    ensures Js.Truthy(HandlerProp(h, handler, "_throws")) || o.oneCallback ==> n == 1
    ensures !Js.Truthy(handler) ==> n == (if o.oneCallback then 1 else 3)
    ensures !HandlerRejects(h, handler) && !Js.Truthy(HandlerProp(h, handler, "_throws")) ==>
      n == (if o.oneCallback then 1 else 3)
  {
    var node010 := nodeVersion == "0.10" && Js.Truthy(Js.Get(h, makeValue, "_asyncArray"));
    if OneCall(h, ctor, handler, o, node010) then 1 else 3
  }

  /**
   * `helperProtoArrayNumHandlerCalls(makePromise, attach, handler, options)`: the
   * node-0.10 sub-condition also needs `makePromise._async || !attach._async`.
   */
  function ProtoArrayNumHandlerCalls(h: Js.Heap, ctor: Js.Val, nodeVersion: string, makePromise: Js.Val,
                                     attach: Js.Val, handler: Js.Val, o: CountOptions): (n: nat)
    ensures n == 1 || n == 3
    ensures Js.Truthy(HandlerProp(h, handler, "_throws")) || o.oneCallback ==> n == 1
    ensures !Js.Truthy(handler) ==> n == (if o.oneCallback then 1 else 3)
  {
    var node010 :=
      && nodeVersion == "0.10"
      && Js.Truthy(Js.Get(h, makePromise, "_asyncArray"))
      && (Js.Truthy(Js.Get(h, makePromise, "_async")) || !Js.Truthy(Js.Get(h, attach, "_async")));
    if OneCall(h, ctor, handler, o, node010) then 1 else 3
  }

  /**
   * The two formulas agree whenever `makePromise._async || !attach._async`; in
   * every case the prototype formula predicts a single call only where the static
   * one does.
   */
  lemma ProtoRefinesStatic(h: Js.Heap, ctor: Js.Val, nodeVersion: string, makePromise: Js.Val,
                           attach: Js.Val, handler: Js.Val, o: CountOptions)
    ensures Js.Truthy(Js.Get(h, makePromise, "_async")) || !Js.Truthy(Js.Get(h, attach, "_async")) ==>
      ProtoArrayNumHandlerCalls(h, ctor, nodeVersion, makePromise, attach, handler, o) ==
      StaticArrayNumHandlerCalls(h, ctor, nodeVersion, makePromise, handler, o)
    ensures ProtoArrayNumHandlerCalls(h, ctor, nodeVersion, makePromise, attach, handler, o) == 1 ==>
      StaticArrayNumHandlerCalls(h, ctor, nodeVersion, makePromise, handler, o) == 1
    ensures nodeVersion != "0.10" ==>
      ProtoArrayNumHandlerCalls(h, ctor, nodeVersion, makePromise, attach, handler, o) ==
      StaticArrayNumHandlerCalls(h, ctor, nodeVersion, makePromise, handler, o)
  {
  }

  /**
   * `helperSuppressUnhandledRejectionsStaticArray(value, makeValue)`: whether a
   * catch handler is attached, which happens only for a tagged promise from a
   * constructor other than `ctor`, made neither as an array nor asynchronously.
   */
  predicate SuppressesUnhandledRejection(h: Js.Heap, ctor: Js.Val, value: Js.Val, makeValue: Js.Val) {
    && Utils.IsPromise(h, value)
    && Js.Get(h, value, "constructor") != ctor
    && Utils.GetRejectStatus(h, value)
    && !Js.Truthy(Js.Get(h, makeValue, "_array"))
    && !Js.Truthy(Js.Get(h, makeValue, "_async"))
  }

  /** Suppression only ever applies to promise objects tagged as rejecting. */
  lemma SuppressOnlyTaggedForeignPromises(h: Js.Heap, ctor: Js.Val, value: Js.Val, makeValue: Js.Val)
    ensures SuppressesUnhandledRejection(h, ctor, value, makeValue) ==>
      value.Ref? && Utils.GetRejectStatus(h, value) && Js.Get(h, value, "constructor") != ctor
    ensures Js.Truthy(Js.Get(h, makeValue, "_async")) ==> !SuppressesUnhandledRejection(h, ctor, value, makeValue)
  {
  }

  /**
   * For a promise, the reject-status tag is what switches suppression on: an
   * untagged promise is never suppressed, and once `setRejectStatus` has tagged
   * it, it is suppressed exactly when its constructor is not the utilities' own
   * and `makeValue` is neither an array nor an asynchronous maker.
   */
  lemma SetRejectStatusEnablesSuppression(h: Js.Heap, ctor: Js.Val, value: Js.Val, makeValue: Js.Val)
    requires Utils.IsPromise(h, value)
    ensures !Utils.GetRejectStatus(h, value) ==> !SuppressesUnhandledRejection(h, ctor, value, makeValue)
    ensures Utils.SetRejectStatus(h, value).Ok?
    ensures SuppressesUnhandledRejection(Utils.SetRejectStatus(h, value).value.0, ctor, value, makeValue) <==>
      && Js.Get(h, value, "constructor") != ctor
      && !Js.Truthy(Js.Get(h, makeValue, "_array"))
      && !Js.Truthy(Js.Get(h, makeValue, "_async"))
  {
  }

  /** The closure `wrapHandler` returns: it runs `wrapper`, then `handler` if there is one. */
  datatype Wrapped = Wrapped(handler: Js.Val, wrapper: Js.Val)

  /** One call made by an invoked function: callee, receiver and arguments. */
  datatype CallRec = CallRec(callee: Js.Val, self: Js.Val, args: seq<Js.Val>)

  /**
   * The `this` a sloppy-mode function sees when called with receiver `self`:
   * `undefined` and `null` become the global object `global`.
   */
  function ThisOf(global: Js.Val, self: Js.Val): (r: Js.Val)
    ensures self != Js.Undefined && self != Js.Null ==> r == self
  {
    if self == Js.Undefined || self == Js.Null then global else self
  }

  /**
   * Invoking the wrapped handler with receiver `self` and `args`, where `handlerResult`
   * is what `handler` returns and `global` is the global object: the calls made, in
   * order, and the return value. In sloppy mode the plain call `wrapper()` receives
   * the global object, and so does `handler.apply(this, ...)` when the wrapped
   * handler itself was called with an `undefined` or `null` receiver.
   */
  function Invoke(w: Wrapped, global: Js.Val, self: Js.Val, args: seq<Js.Val>, handlerResult: Js.Val): (r: (seq<CallRec>, Js.Val))
    ensures |r.0| >= 1 && r.0[0] == CallRec(w.wrapper, global, [])
    ensures Js.Truthy(w.handler) ==> r.0 == [CallRec(w.wrapper, global, []), CallRec(w.handler, ThisOf(global, self), args)]
    ensures Js.Truthy(w.handler) ==> r.1 == handlerResult
    ensures !Js.Truthy(w.handler) ==> |r.0| == 1 && r.1 == Js.Undefined
  {
    var first := [CallRec(w.wrapper, global, [])];
    if Js.Truthy(w.handler) then (first + [CallRec(w.handler, ThisOf(global, self), args)], handlerResult)
    else (first, Js.Undefined)
  }

  /**
   * `wrapHandler(handler, wrapper)`: allocates the wrapped function at the unused
   * address `free`, gives it the handler's reject status, and returns it.
   */
  function WrapHandler(h: Js.Heap, handler: Js.Val, wrapper: Js.Val, free: nat): (r: (Js.Heap, Js.Val, Wrapped))
    requires free !in h
    ensures r.1 == Js.Ref(free) && Js.IsFunction(r.0, r.1)
    ensures r.2 == Wrapped(handler, wrapper)
    ensures Utils.GetRejectStatus(r.0, r.1) == Utils.GetRejectStatus(h, handler)
    ensures forall a :: a in h ==> a in r.0 && r.0[a] == h[a]
  {
    var h1 := h[free := Js.Object(true, map[], [])];
    assert Js.Get(h1, handler, Utils.RejectStatusKey) == Js.Get(h, handler, Utils.RejectStatusKey);
    var (h2, fn) := Utils.InheritRejectStatus(h1, Js.Ref(free), handler);
    (h2, fn, Wrapped(handler, wrapper))
  }

  /**
   * What `wrapHandler` promises its callers: the wrapped handler runs `wrapper`
   * and then behaves as the handler itself (the receiver it was given, or the
   * global object in place of `undefined` and `null`; the same arguments; the
   * same result, or `undefined` without a handler), and it counts as rejecting
   * exactly when the handler does.
   */
  lemma WrappedHandlerStandsInForHandler(h: Js.Heap, handler: Js.Val, wrapper: Js.Val, free: nat,
                                         global: Js.Val, self: Js.Val, args: seq<Js.Val>, result: Js.Val)
    requires free !in h
    ensures var (h', fn, w) := WrapHandler(h, handler, wrapper, free);
      var (calls, ret) := Invoke(w, global, self, args, result);
      && calls[0].callee == wrapper
      && calls[1..] == (if Js.Truthy(handler) then [CallRec(handler, ThisOf(global, self), args)] else [])
      && ret == (if Js.Truthy(handler) then result else Js.Undefined)
      && Utils.GetRejectStatus(h', fn) == Utils.GetRejectStatus(h, handler)
  {
  }
}

=== FILE: js.dfy ===
/**
 * A small model of JavaScript values and the object heap, enough for the
 * duck-typed checks of the test utilities: truthiness, `typeof ... === 'function'`,
 * property reads and writes, and `instanceof`.
 *
 * Each object record holds every property visible through it (its own and the
 * inherited ones) and the addresses of its prototype chain, so property lookup
 * and `instanceof` need no walk over the chain.
 */
module Js {

  datatype Val =
    | Undefined
    | Null
    | Bool(b: bool)
    | Num(n: int)
    | Str(s: string)
    | Ref(addr: nat)

  /** One heap object: callable (a function) or not, its visible properties, its prototype chain. */
  datatype Object = Object(callable: bool, props: map<string, Val>, chain: seq<nat>)

  type Heap = map<nat, Object>

  const EmptyObject := Object(false, map[], [])

  /** JavaScript's ToBoolean. `NaN` is not modelled. */
  predicate Truthy(v: Val) {
    match v
    case Undefined => false
    case Null => false
    case Bool(b) => b
    case Num(n) => n != 0
    case Str(s) => s != ""
    case Ref(_) => true
  }

  function Deref(h: Heap, a: nat): Object {
    if a in h then h[a] else EmptyObject
  }

  /** `typeof v === 'function'` */
  predicate IsFunction(h: Heap, v: Val) {
    v.Ref? && Deref(h, v.addr).callable
  }

  /**
   * The property read `v[key]`. Primitives carry none of the properties the model
   * reads; reading from `undefined` or `null` throws in JavaScript, and every caller
   * here either guards against that or models the throw itself.
   */
  function Get(h: Heap, v: Val, key: string): (r: Val)
    ensures !v.Ref? ==> r == Undefined
    ensures v.Ref? && v.addr in h && key in h[v.addr].props ==> r == h[v.addr].props[key]
  {
    if v.Ref? then
      var o := Deref(h, v.addr);
      if key in o.props then o.props[key] else Undefined
    else Undefined
  }

  /**
   * The sloppy-mode assignment `v[key] = x` for a `v` that is not `undefined` or
   * `null`: it writes an own property of an object and is silently ignored on
   * any other primitive.
   */
  function Put(h: Heap, v: Val, key: string, x: Val): (h': Heap)
    requires v != Undefined && v != Null
    ensures v.Ref? ==> Get(h', v, key) == x
    ensures forall a :: a in h && (!v.Ref? || a != v.addr) ==> a in h' && h'[a] == h[a]
    ensures forall a :: a in h' ==> a in h || (v.Ref? && a == v.addr)
    ensures v.Ref? ==> forall k :: k != key ==> Get(h', v, k) == Get(h, v, k)
    ensures forall w :: IsFunction(h', w) == IsFunction(h, w)
  {
    if v.Ref? then
      var o := Deref(h, v.addr);
      h[v.addr := o.(props := o.props[key := x])]
    else h
  }

  /**
   * `v instanceof C` for a constructor `C` whose `prototype` is an object: true
   * exactly when that prototype lies on `v`'s prototype chain.
   */
  predicate InstanceOf(h: Heap, v: Val, ctor: Val) {
    var proto := Get(h, ctor, "prototype");
    v.Ref? && proto.Ref? && proto.addr in Deref(h, v.addr).chain
  }

  /** A constructor: a function whose `prototype` property is an object. */
  predicate IsConstructor(h: Heap, ctor: Val) {
    IsFunction(h, ctor) && Get(h, ctor, "prototype").Ref?
  }
}

=== FILE: mocha_shim.dfy ===
/**
 * The mocha shim of the test suite: while a `describe` body runs, calls to
 * `describe`, `it` and the hook globals are recorded instead of registered;
 * afterwards a body that recorded exactly one `it` is registered as a single
 * test named "<describe> <it>", and any other body is registered as a suite
 * that replays the recorded calls.
 *
 * User code is a tree of `Action`s; what mocha receives is a tree of `Reg`s.
 * Test and hook functions are opaque identities (`nat`). A method name such as
 * "only" or "skip" is a string, "" standing for "none".
 */
module MochaShim {
  import opened Wrappers

  datatype HookKind = Before | BeforeEach | After | AfterEach

  /** What a hook global calls once the shim is installed: the recording executor of a kind, or mocha's own hook. */
  datatype Binding = Recorder(kind: HookKind) | Original(kind: HookKind)

  /** The binding of each of the four hook globals. */
  datatype Table = Table(before: Binding, beforeEach: Binding, after: Binding, afterEach: Binding)

  function Lookup(t: Table, g: HookKind): Binding {
    match g
    case Before => t.before
    case BeforeEach => t.beforeEach
    case After => t.after
    case AfterEach => t.afterEach
  }

  /**
   * The globals as the shim leaves them: the replacement built from `afterEach`
   * (recording kind 'afterEach') is assigned to `beforeEach`, and `afterEach`
   * itself is never replaced.
   */
  function HookTableAsWritten(): Table {
    Table(Recorder(Before), Recorder(AfterEach), Recorder(After), Original(AfterEach))
  }

  /** Every hook global replaced by the recorder of its own kind. */
  function HookTableIntended(): (t: Table)
    ensures forall g :: Lookup(t, g) == Recorder(g)
  {
    Table(Recorder(Before), Recorder(BeforeEach), Recorder(After), Recorder(AfterEach))
  }

  /** Every hook global records. */
  predicate AllRecorders(t: Table) {
    forall g :: Lookup(t, g).Recorder?
  }

  // ---------------------------------------------------------------------------
  // Installation
  // ---------------------------------------------------------------------------

  /** The globals: the `__shimmed` flag on `describe`, and the hook bindings once replaced. */
  datatype Globals = Globals(shimmed: bool, hooks: Option<Table>)

  const Unshimmed := Globals(false, None)

  /** Installing the shim; a second installation returns at the flag check and changes nothing. */
  function Install(g: Globals, t: Table): (r: Globals)
    ensures g.shimmed ==> r == g
    ensures !g.shimmed ==> r.hooks == Some(t)
    ensures r.shimmed
  {
    if g.shimmed then g else Globals(true, Some(t))
  }

  /** Loading the shim module once per table in `ts`, in order. */
  function InstallAll(g: Globals, ts: seq<Table>): Globals
    decreases |ts|
  {
    if ts == [] then g else InstallAll(Install(g, ts[0]), ts[1..])
  }

  /**
   * However often the shim is loaded, the globals are those of the first
   * installation: an installed shim is never installed over, and from the
   * unshimmed globals the first table wins.
   */
  lemma {:induction false} InstallAllKeepsFirst(g: Globals, ts: seq<Table>)
    ensures g.shimmed ==> InstallAll(g, ts) == g
    ensures !g.shimmed && ts != [] ==> InstallAll(g, ts) == Globals(true, Some(ts[0]))
    decreases |ts|
  {
    if ts != [] {
      InstallAllKeepsFirst(Install(g, ts[0]), ts[1..]);
    }
  }

  /**
   * The file as written installs `HookTableAsWritten` on every load, so after
   * `n` loads into fresh globals the hook globals the suite runs with are that
   * table's: `beforeEach` dispatches to the `afterEach` recorder and
   * `afterEach` stays mocha's own.
   */
  lemma ShimLoadsAsWritten(n: nat)
    ensures n == 0 ==> InstallAll(Unshimmed, seq(n, _ => HookTableAsWritten())) == Unshimmed
    ensures n > 0 ==> InstallAll(Unshimmed, seq(n, _ => HookTableAsWritten())) == Globals(true, Some(HookTableAsWritten()))
    ensures n > 0 ==> Lookup(InstallAll(Unshimmed, seq(n, _ => HookTableAsWritten())).hooks.value, BeforeEach) == Recorder(AfterEach)
    ensures n > 0 ==> Lookup(InstallAll(Unshimmed, seq(n, _ => HookTableAsWritten())).hooks.value, AfterEach) == Original(AfterEach)
  {
    var ts := seq(n, _ => HookTableAsWritten());
    InstallAllKeepsFirst(Unshimmed, ts);
    if n > 0 {
      assert ts[0] == HookTableAsWritten();
    }
  }

  // ---------------------------------------------------------------------------
  // User code and mocha registrations
  // ---------------------------------------------------------------------------

  /**
   * One call made by user code. `UIt`'s `title` is `None` when the first
   * argument was the test function itself (`it(fn)`); a hook names the global
   * that was called.
   */
  datatype Action =
    | UDescribe(name: string, body: seq<Action>, noCollapse: bool, methodName: string)
    | UIt(title: Option<string>, fn: nat, methodName: string)
    | UHook(global: HookKind, fn: nat, methodName: string)

  /** A call recorded while a `describe` body runs. */
  datatype Call =
    | CDescribe(name: string, body: seq<Action>, noCollapse: bool, methodName: string)
    | CIt(name: string, fn: nat, methodName: string)
    | CHook(kind: HookKind, fn: nat, methodName: string)

  /** What mocha is asked to register, in order. */
  datatype Reg =
    | RIt(name: string, fn: nat, methodName: string)
    | RHook(kind: HookKind, fn: nat, methodName: string)
    | RDescribe(name: string, methodName: string, children: seq<Reg>)

  function Size(a: Action): nat
    decreases a
  {
    match a
    case UDescribe(_, body, _, _) => 1 + SizeSeq(body)
    case _ => 1
  }

  function SizeSeq(s: seq<Action>): nat
    decreases s
  {
    if s == [] then 0 else Size(s[0]) + SizeSeq(s[1..])
  }

  function CallSize(c: Call): nat {
    match c
    case CDescribe(_, body, _, _) => 1 + SizeSeq(body)
    case _ => 1
  }

  function CallsSize(s: seq<Call>): nat {
    if s == [] then 0 else CallSize(s[0]) + CallsSize(s[1..])
  }

  /** `it(fn)` shifts its arguments: the test function moves over and the title becomes empty. */
  function ItTitle(title: Option<string>): (r: string)
    ensures title.None? ==> r == ""
    ensures title.Some? ==> r == title.value
  {
    title.GetOr("")
  }

  /**
   * Running a `describe` body: each call is recorded, except a hook whose
   * global is still mocha's own, which registers at once in the enclosing
   * suite (`esc`).
   */
  function Collect(t: Table, body: seq<Action>): (r: (seq<Call>, seq<Reg>))
    ensures CallsSize(r.0) <= SizeSeq(body)
    ensures |r.0| + |r.1| == |body|
  {
    if body == [] then ([], [])
    else
      var rest := Collect(t, body[1..]);
      match body[0]
      case UDescribe(n, b, nc, mn) => ([CDescribe(n, b, nc, mn)] + rest.0, rest.1)
      case UIt(title, fn, mn) => ([CIt(ItTitle(title), fn, mn)] + rest.0, rest.1)
      case UHook(g, fn, mn) =>
        match Lookup(t, g)
        case Recorder(k) => ([CHook(k, fn, mn)] + rest.0, rest.1)
        case Original(k) => (rest.0, [RHook(k, fn, mn)] + rest.1)
  }

  /** The outer and inner method names agree when either is absent or they are equal. */
  predicate Compatible(outer: string, inner: string) {
    outer == "" || inner == "" || inner == outer
  }

  function CollapsedName(name: string, itName: string): string {
    if itName == "" then name else name + " " + itName
  }

  function MergedMethod(outer: string, inner: string): string {
    if outer == "" then inner else outer
  }

  /** `describeRun`: collapse a lone compatible `it`, otherwise register a suite that replays the calls. */
  function DescribeRun(t: Table, name: string, body: seq<Action>, noCollapse: bool, methodName: string): (r: seq<Reg>)
    decreases SizeSeq(body), 1
  {
    var c := Collect(t, body);
    var rec := c.0;
    if |rec| == 1 && !noCollapse && rec[0].CIt? && Compatible(methodName, rec[0].methodName) then
      c.1 + [RIt(CollapsedName(name, rec[0].name), rec[0].fn, MergedMethod(methodName, rec[0].methodName))]
    else
      c.1 + [RDescribe(name, methodName, Replay(t, rec))]
  }

  /** The suite callback: nested describes run through `describeRun`, the rest go to mocha's own functions. */
  function Replay(t: Table, rec: seq<Call>): (r: seq<Reg>)
    decreases CallsSize(rec), 0
  {
    if rec == [] then []
    else
      var head := match rec[0]
        case CDescribe(n, b, nc, mn) => DescribeRun(t, n, b, nc, mn)
        case CIt(n, fn, mn) => [RIt(n, fn, mn)]
        case CHook(k, fn, mn) => [RHook(k, fn, mn)];
      head + Replay(t, rec[1..])
  }

  /** A top-level call, made while nothing is being recorded. */
  function Exec(t: Table, a: Action): seq<Reg> {
    match a
    case UDescribe(n, b, nc, mn) => DescribeRun(t, n, b, nc, mn)
    case UIt(title, fn, mn) => [RIt(ItTitle(title), fn, mn)]
    case UHook(g, fn, mn) => [RHook(Lookup(t, g).kind, fn, mn)]
  }

  /** A test file's top-level calls, in order. */
  function Run(t: Table, prog: seq<Action>): seq<Reg> {
    if prog == [] then [] else Exec(t, prog[0]) + Run(t, prog[1..])
  }

  // ---------------------------------------------------------------------------
  // Collapsing
  // ---------------------------------------------------------------------------

  /** A describe holding one `it` with compatible method names becomes that single test. */
  lemma SingleItCollapses(t: Table, name: string, title: Option<string>, fn: nat, itMethod: string, methodName: string)
    requires Compatible(methodName, itMethod)
    ensures DescribeRun(t, name, [UIt(title, fn, itMethod)], false, methodName)
      == [RIt(CollapsedName(name, ItTitle(title)), fn, MergedMethod(methodName, itMethod))]
  {
    var body := [UIt(title, fn, itMethod)];
    assert body[1..] == [];
    assert Collect(t, body[1..]).0 == [] && Collect(t, body[1..]).1 == [];
    assert Collect(t, body).0 == [CIt(ItTitle(title), fn, itMethod)];
    assert Collect(t, body).1 == [];
  }

  /** `it(fn)` inside a collapsing describe keeps the describe's name unchanged. */
  lemma UntitledItKeepsName(t: Table, name: string, fn: nat)
    ensures DescribeRun(t, name, [UIt(None, fn, "")], false, "") == [RIt(name, fn, "")]
  {
    SingleItCollapses(t, name, None, fn, "", "");
  }

  /** Two different method names on the describe and its lone `it` keep the suite. */
  lemma IncompatibleMethodsKeepSuite(t: Table, name: string, title: Option<string>, fn: nat, itMethod: string, methodName: string)
    requires !Compatible(methodName, itMethod)
    ensures DescribeRun(t, name, [UIt(title, fn, itMethod)], false, methodName)
      == [RDescribe(name, methodName, [RIt(ItTitle(title), fn, itMethod)])]
  {
    var body := [UIt(title, fn, itMethod)];
    assert body[1..] == [];
    assert Collect(t, body[1..]).0 == [] && Collect(t, body[1..]).1 == [];
    var rec := [CIt(ItTitle(title), fn, itMethod)];
    assert Collect(t, body).0 == rec;
    assert Collect(t, body).1 == [];
    assert rec[1..] == [];
    assert Replay(t, rec[1..]) == [];
    assert Replay(t, rec) == [RIt(ItTitle(title), fn, itMethod)];
  }

  /** With `noCollapse` the describe is always registered as a suite of its own name, after any escaped hooks. */
  lemma NoCollapseKeepsSuite(t: Table, name: string, body: seq<Action>, methodName: string)
    ensures var r := DescribeRun(t, name, body, true, methodName);
      |r| >= 1 && r[|r| - 1].RDescribe? && r[|r| - 1].name == name && r[|r| - 1].methodName == methodName
  {
  }

  // ---------------------------------------------------------------------------
  // What reaches mocha
  // ---------------------------------------------------------------------------

  /** A registered test or hook function. */
  datatype Leaf = LTest(fn: nat) | LHook(kind: HookKind, fn: nat)

  function RegLeaves(r: Reg): seq<Leaf>
    decreases r
  {
    match r
    case RIt(_, fn, _) => [LTest(fn)]
    case RHook(k, fn, _) => [LHook(k, fn)]
    case RDescribe(_, _, children) => Leaves(children)
  }

  /** Every test and hook function mocha receives, depth first, in registration order. */
  function Leaves(rs: seq<Reg>): seq<Leaf>
    decreases rs
  {
    if rs == [] then [] else RegLeaves(rs[0]) + Leaves(rs[1..])
  }

  function ActionLeaves(t: Table, a: Action): seq<Leaf>
    decreases a
  {
    match a
    case UDescribe(_, body, _, _) => BodyLeaves(t, body)
    case UIt(_, fn, _) => [LTest(fn)]
    case UHook(g, fn, _) => [LHook(Lookup(t, g).kind, fn)]
  }

  /** The functions user code passes, in call order, each hook labelled with the kind its global dispatches to. */
  function BodyLeaves(t: Table, body: seq<Action>): seq<Leaf>
    decreases body
  {
    if body == [] then [] else ActionLeaves(t, body[0]) + BodyLeaves(t, body[1..])
  }

  function CallLeaves(t: Table, rec: seq<Call>): seq<Leaf> {
    if rec == [] then []
    else
      var head := match rec[0]
        case CDescribe(_, b, _, _) => BodyLeaves(t, b)
        case CIt(_, fn, _) => [LTest(fn)]
        case CHook(k, fn, _) => [LHook(k, fn)];
      head + CallLeaves(t, rec[1..])
  }

  /** The functions user code passes, in call order, each hook labelled with the global the user called. */
  function SourceLeaves(body: seq<Action>): seq<Leaf>
    decreases body
  {
    if body == [] then []
    else
      var head := match body[0]
        case UDescribe(_, b, _, _) => SourceLeaves(b)
        case UIt(_, fn, _) => [LTest(fn)]
        case UHook(g, fn, _) => [LHook(g, fn)];
      head + SourceLeaves(body[1..])
  }

  lemma {:induction false} LeavesAppend(a: seq<Reg>, b: seq<Reg>)
    ensures Leaves(a + b) == Leaves(a) + Leaves(b)
  {
    if a == [] {
      assert a + b == b;
    } else {
      assert (a + b)[1..] == a[1..] + b;
      LeavesAppend(a[1..], b);
    }
  }

  /** One recorded call contributes the same leaves as the action it records. */
  lemma CollectHead(t: Table, body: seq<Action>)
    requires body != []
    ensures var c := Collect(t, body);
      var rest := Collect(t, body[1..]);
      if body[0].UHook? && Lookup(t, body[0].global).Original? then
        c.0 == rest.0 && |c.1| == |rest.1| + 1 && Leaves(c.1) == ActionLeaves(t, body[0]) + Leaves(rest.1)
      else
        c.1 == rest.1 && CallLeaves(t, c.0) == ActionLeaves(t, body[0]) + CallLeaves(t, rest.0)
  {
    var rest := Collect(t, body[1..]);
    var c := Collect(t, body);
    if body[0].UHook? && Lookup(t, body[0].global).Original? {
      var e := RHook(Lookup(t, body[0].global).kind, body[0].fn, body[0].methodName);
      assert c.1 == [e] + rest.1;
      assert ([e] + rest.1)[1..] == rest.1;
    } else {
      var call := match body[0]
        case UDescribe(n, b, nc, mn) => CDescribe(n, b, nc, mn)
        case UIt(title, fn, mn) => CIt(ItTitle(title), fn, mn)
        case UHook(g, fn, mn) => CHook(Lookup(t, g).kind, fn, mn);
      assert c.0 == [call] + rest.0;
      assert ([call] + rest.0)[1..] == rest.0;
    }
  }

  /** Recording loses no function: the recorded calls and the escaped hooks together hold everything the body passed. */
  lemma {:induction false} CollectLeaves(t: Table, body: seq<Action>)
    ensures multiset(CallLeaves(t, Collect(t, body).0)) + multiset(Leaves(Collect(t, body).1)) == multiset(BodyLeaves(t, body))
  {
    if body != [] {
      CollectLeaves(t, body[1..]);
      CollectHead(t, body);
      assert BodyLeaves(t, body) == ActionLeaves(t, body[0]) + BodyLeaves(t, body[1..]);
    }
  }

  /** When nothing escapes, the recorded calls hold the body's functions in order. */
  lemma {:induction false} CollectLeavesOrdered(t: Table, body: seq<Action>)
    ensures Collect(t, body).1 == [] ==> CallLeaves(t, Collect(t, body).0) == BodyLeaves(t, body)
  {
    if body != [] {
      CollectHead(t, body);
      CollectLeavesOrdered(t, body[1..]);
      assert BodyLeaves(t, body) == ActionLeaves(t, body[0]) + BodyLeaves(t, body[1..]);
    }
  }

  /** The registrations of a describe: the escaped hooks, then the single test or the suite. */
  lemma DescribeRunShape(t: Table, name: string, body: seq<Action>, noCollapse: bool, methodName: string)
    ensures var c := Collect(t, body);
      var r := DescribeRun(t, name, body, noCollapse, methodName);
      Leaves(r) == Leaves(c.1) + (if |c.0| == 1 && !noCollapse && c.0[0].CIt? && Compatible(methodName, c.0[0].methodName)
                                  then CallLeaves(t, c.0) else Leaves(Replay(t, c.0)))
  {
    var c := Collect(t, body);
    var rec := c.0;
    var r := DescribeRun(t, name, body, noCollapse, methodName);
    if |rec| == 1 && !noCollapse && rec[0].CIt? && Compatible(methodName, rec[0].methodName) {
      var it := RIt(CollapsedName(name, rec[0].name), rec[0].fn, MergedMethod(methodName, rec[0].methodName));
      LeavesAppend(c.1, [it]);
      assert [it][1..] == [];
      assert rec[1..] == [];
      assert CallLeaves(t, rec) == [LTest(rec[0].fn)];
    } else {
      var suite := RDescribe(name, methodName, Replay(t, rec));
      LeavesAppend(c.1, [suite]);
      assert [suite][1..] == [];
    }
  }

  lemma {:induction false} DescribeRunLeaves(t: Table, name: string, body: seq<Action>, noCollapse: bool, methodName: string)
    ensures multiset(Leaves(DescribeRun(t, name, body, noCollapse, methodName))) == multiset(BodyLeaves(t, body))
    decreases SizeSeq(body), 1
  {
    var c := Collect(t, body);
    CollectLeaves(t, body);
    DescribeRunShape(t, name, body, noCollapse, methodName);
    ReplayLeaves(t, c.0);
  }

  lemma {:induction false} ReplayLeaves(t: Table, rec: seq<Call>)
    ensures multiset(Leaves(Replay(t, rec))) == multiset(CallLeaves(t, rec))
    decreases CallsSize(rec), 0
  {
    if rec != [] {
      var head := match rec[0]
        case CDescribe(n, b, nc, mn) => DescribeRun(t, n, b, nc, mn)
        case CIt(n, fn, mn) => [RIt(n, fn, mn)]
        case CHook(k, fn, mn) => [RHook(k, fn, mn)];
      ReplayLeaves(t, rec[1..]);
      LeavesAppend(head, Replay(t, rec[1..]));
      match rec[0]
      case CDescribe(n, b, nc, mn) =>
        DescribeRunLeaves(t, n, b, nc, mn);
      case CIt(n, fn, mn) =>
        assert head[1..] == [];
      case CHook(k, fn, mn) =>
        assert head[1..] == [];
    }
  }

  lemma {:induction false} DescribeRunLeavesOrdered(t: Table, name: string, body: seq<Action>, noCollapse: bool, methodName: string)
    requires AllRecorders(t)
    ensures Leaves(DescribeRun(t, name, body, noCollapse, methodName)) == BodyLeaves(t, body)
    decreases SizeSeq(body), 1
  {
    var c := Collect(t, body);
    NothingEscapesRecorders(t, body);
    CollectLeavesOrdered(t, body);
    DescribeRunShape(t, name, body, noCollapse, methodName);
    ReplayLeavesOrdered(t, c.0);
  }

  lemma {:induction false} ReplayLeavesOrdered(t: Table, rec: seq<Call>)
    requires AllRecorders(t)
    ensures Leaves(Replay(t, rec)) == CallLeaves(t, rec)
    decreases CallsSize(rec), 0
  {
    if rec != [] {
      var head := match rec[0]
        case CDescribe(n, b, nc, mn) => DescribeRun(t, n, b, nc, mn)
        case CIt(n, fn, mn) => [RIt(n, fn, mn)]
        case CHook(k, fn, mn) => [RHook(k, fn, mn)];
      ReplayLeavesOrdered(t, rec[1..]);
      LeavesAppend(head, Replay(t, rec[1..]));
      match rec[0]
      case CDescribe(n, b, nc, mn) =>
        DescribeRunLeavesOrdered(t, n, b, nc, mn);
      case CIt(n, fn, mn) =>
        assert head[1..] == [];
      case CHook(k, fn, mn) =>
        assert head[1..] == [];
    }
  }

  /**
   * Every test and hook function the file passes reaches mocha exactly once, hooks
   * with the kind their global dispatches to; when every hook global records,
   * they also reach it in the order the file passed them.
   */
  lemma {:induction false} RunKeepsLeaves(t: Table, prog: seq<Action>)
    ensures multiset(Leaves(Run(t, prog))) == multiset(BodyLeaves(t, prog))
    ensures AllRecorders(t) ==> Leaves(Run(t, prog)) == BodyLeaves(t, prog)
  {
    if prog != [] {
      var head := Exec(t, prog[0]);
      RunKeepsLeaves(t, prog[1..]);
      LeavesAppend(head, Run(t, prog[1..]));
      match prog[0]
      case UDescribe(n, b, nc, mn) =>
        DescribeRunLeaves(t, n, b, nc, mn);
        if AllRecorders(t) {
          DescribeRunLeavesOrdered(t, n, b, nc, mn);
        }
      case UIt(title, fn, mn) =>
        assert head[1..] == [];
      case UHook(g, fn, mn) =>
        assert head[1..] == [];
    }
  }

  /** With every global replaced by its own recorder, the functions and hook kinds are exactly those the file wrote. */
  lemma {:induction false} IntendedLeavesAreSource(body: seq<Action>)
    ensures BodyLeaves(HookTableIntended(), body) == SourceLeaves(body)
  {
    if body != [] {
      IntendedLeavesAreSource(body[1..]);
      match body[0]
      case UDescribe(_, b, _, _) =>
        IntendedLeavesAreSource(b);
      case UIt(_, _, _) =>
      case UHook(_, _, _) =>
    }
  }

  /** The intended shim registers every function the file passes, in order, with the hook kind it was passed as. */
  lemma IntendedRunKeepsHooks(prog: seq<Action>)
    ensures Leaves(Run(HookTableIntended(), prog)) == SourceLeaves(prog)
  {
    RunKeepsLeaves(HookTableIntended(), prog);
    IntendedLeavesAreSource(prog);
  }

  lemma {:induction false} AsWrittenBodyHasNoBeforeEach(body: seq<Action>, fn: nat)
    ensures LHook(BeforeEach, fn) !in BodyLeaves(HookTableAsWritten(), body)
  {
    if body != [] {
      AsWrittenBodyHasNoBeforeEach(body[1..], fn);
      match body[0]
      case UDescribe(_, b, _, _) =>
        AsWrittenBodyHasNoBeforeEach(b, fn);
      case UIt(_, _, _) =>
      case UHook(g, _, _) =>
        assert Lookup(HookTableAsWritten(), g).kind != BeforeEach;
    }
  }

  /** As written, no `beforeEach` hook ever reaches mocha, wherever the file calls `beforeEach`. */
  lemma AsWrittenNeverRegistersBeforeEach(prog: seq<Action>, fn: nat)
    ensures LHook(BeforeEach, fn) !in Leaves(Run(HookTableAsWritten(), prog))
  {
    RunKeepsLeaves(HookTableAsWritten(), prog);
    AsWrittenBodyHasNoBeforeEach(prog, fn);
    assert LHook(BeforeEach, fn) !in multiset(BodyLeaves(HookTableAsWritten(), prog));
  }

  // ---------------------------------------------------------------------------
  // Escaping hooks
  // ---------------------------------------------------------------------------

  lemma {:induction false} CollectEscapes(t: Table, body: seq<Action>, i: nat)
    requires i < |body| && body[i].UHook? && Lookup(t, body[i].global).Original?
    ensures RHook(Lookup(t, body[i].global).kind, body[i].fn, body[i].methodName) in Collect(t, body).1
  {
    if i > 0 {
      assert body[1..][i - 1] == body[i];
      CollectEscapes(t, body[1..], i - 1);
    }
  }

  /** A hook whose global is still mocha's own registers beside the describe, in the enclosing suite, not inside it. */
  lemma EscapedHookJoinsEnclosingSuite(t: Table, name: string, body: seq<Action>, noCollapse: bool, methodName: string, i: nat)
    requires i < |body| && body[i].UHook? && Lookup(t, body[i].global).Original?
    ensures RHook(Lookup(t, body[i].global).kind, body[i].fn, body[i].methodName) in DescribeRun(t, name, body, noCollapse, methodName)
  {
    CollectEscapes(t, body, i);
  }

  lemma {:induction false} NothingEscapesRecorders(t: Table, body: seq<Action>)
    requires AllRecorders(t)
    ensures Collect(t, body).1 == []
  {
    if body != [] {
      NothingEscapesRecorders(t, body[1..]);
      if body[0].UHook? {
        assert Lookup(t, body[0].global).Recorder?;
      }
    }
  }

  /** When every hook global records, a describe registers exactly one thing: its test or its suite. */
  lemma RecordersRegisterOnce(t: Table, name: string, body: seq<Action>, noCollapse: bool, methodName: string)
    requires AllRecorders(t)
    ensures |DescribeRun(t, name, body, noCollapse, methodName)| == 1
  {
    NothingEscapesRecorders(t, body);
  }

  // ---------------------------------------------------------------------------
  // The hook swap, concretely
  // ---------------------------------------------------------------------------

  function HookedSuite(global: HookKind): seq<Action> {
    [UDescribe("s", [UHook(global, 5, ""), UIt(Some("a"), 1, ""), UIt(Some("b"), 2, "")], false, "")]
  }

  lemma HookedSuiteCollect(t: Table, global: HookKind)
    ensures var c := Collect(t, HookedSuite(global)[0].body);
      var k := Lookup(t, global).kind;
      && (Lookup(t, global).Recorder? ==> c.0 == [CHook(k, 5, ""), CIt("a", 1, ""), CIt("b", 2, "")] && c.1 == [])
      && (Lookup(t, global).Original? ==> c.0 == [CIt("a", 1, ""), CIt("b", 2, "")] && c.1 == [RHook(k, 5, "")])
  {
    var body := HookedSuite(global)[0].body;
    var tail := [UIt(Some("a"), 1, ""), UIt(Some("b"), 2, "")];
    assert body[1..] == tail;
    assert tail[1..] == [UIt(Some("b"), 2, "")];
    assert tail[1..][1..] == [];
    assert Collect(t, tail[1..][1..]).0 == [] && Collect(t, tail[1..][1..]).1 == [];
    assert Collect(t, tail[1..]).0 == [CIt("b", 2, "")] && Collect(t, tail[1..]).1 == [];
    assert Collect(t, tail).0 == [CIt("a", 1, ""), CIt("b", 2, "")] && Collect(t, tail).1 == [];
  }

  /** As written, `beforeEach` inside a describe registers an `afterEach` hook of that suite. */
  lemma BeforeEachBecomesAfterEach()
    ensures Run(HookTableAsWritten(), HookedSuite(BeforeEach))
      == [RDescribe("s", "", [RHook(AfterEach, 5, ""), RIt("a", 1, ""), RIt("b", 2, "")])]
  {
    var t := HookTableAsWritten();
    var prog := HookedSuite(BeforeEach);
    HookedSuiteCollect(t, BeforeEach);
    var rec := [CHook(AfterEach, 5, ""), CIt("a", 1, ""), CIt("b", 2, "")];
    assert rec[1..] == [CIt("a", 1, ""), CIt("b", 2, "")];
    assert rec[1..][1..] == [CIt("b", 2, "")];
    assert rec[1..][1..][1..] == [];
    assert Replay(t, rec) == [RHook(AfterEach, 5, ""), RIt("a", 1, ""), RIt("b", 2, "")];
    assert prog[1..] == [];
  }

  /** As written, `afterEach` inside a describe registers in the enclosing suite, ahead of the describe. */
  lemma AfterEachEscapesSuite()
    ensures Run(HookTableAsWritten(), HookedSuite(AfterEach))
      == [RHook(AfterEach, 5, ""), RDescribe("s", "", [RIt("a", 1, ""), RIt("b", 2, "")])]
  {
    var t := HookTableAsWritten();
    var prog := HookedSuite(AfterEach);
    HookedSuiteCollect(t, AfterEach);
    var rec := [CIt("a", 1, ""), CIt("b", 2, "")];
    assert rec[1..] == [CIt("b", 2, "")];
    assert rec[1..][1..] == [];
    assert Replay(t, rec) == [RIt("a", 1, ""), RIt("b", 2, "")];
    assert prog[1..] == [];
  }

  /** With the intended bindings, a `beforeEach` inside a describe stays a `beforeEach` of that suite. */
  lemma IntendedBeforeEachStays()
    ensures Run(HookTableIntended(), HookedSuite(BeforeEach))
      == [RDescribe("s", "", [RHook(BeforeEach, 5, ""), RIt("a", 1, ""), RIt("b", 2, "")])]
  {
    var t := HookTableIntended();
    var prog := HookedSuite(BeforeEach);
    HookedSuiteCollect(t, BeforeEach);
    var rec := [CHook(BeforeEach, 5, ""), CIt("a", 1, ""), CIt("b", 2, "")];
    assert rec[1..] == [CIt("a", 1, ""), CIt("b", 2, "")];
    assert rec[1..][1..] == [CIt("b", 2, "")];
    assert rec[1..][1..][1..] == [];
    assert Replay(t, rec) == [RHook(BeforeEach, 5, ""), RIt("a", 1, ""), RIt("b", 2, "")];
    assert prog[1..] == [];
  }
}

=== FILE: patched.dfy ===
/**
 * The "all methods patched" and "patching keeps method equality" checks:
 * `checkPatched` picks which methods must carry shimmer's `__wrapped` mark, and
 * `getEquals` lists the groups of keys holding the same function, compared
 * before and after patching by `checkEqual`.
 */
module Patched {

  /** A property value: a function (its identity and whether it is marked `__wrapped`) or anything else. */
  datatype Prop = Method(id: nat, wrapped: bool) | Data

  /** `a === b` where `a` is a function. */
  predicate SameFunction(a: Prop, b: Prop) {
    a.Method? && b.Method? && a.id == b.id
  }

  // ---------------------------------------------------------------------------
  // String order: lexicographic by character. A Dafny `char` is a Unicode
  // scalar value, so this is code-point order; it coincides with JavaScript's
  // UTF-16 code-unit order for keys without characters above U+FFFF.
  // ---------------------------------------------------------------------------

  /** `a < b` on strings, compared character by character. */
  predicate Below(a: string, b: string)
    decreases |a|
  {
    if |a| == 0 then |b| > 0
    else if |b| == 0 then false
    else if a[0] != b[0] then a[0] < b[0]
    else Below(a[1..], b[1..])
  }

  lemma {:induction false} BelowIrreflexive(a: string)
    ensures !Below(a, a)
    decreases |a|
  {
    if |a| > 0 {
      BelowIrreflexive(a[1..]);
    }
  }

  lemma {:induction false} BelowTransitive(a: string, b: string, c: string)
    requires Below(a, b) && Below(b, c)
    ensures Below(a, c)
    decreases |a|
  {
    if |a| > 0 && a[0] == b[0] && b[0] == c[0] {
      BelowTransitive(a[1..], b[1..], c[1..]);
    }
  }

  lemma {:induction false} BelowTotal(a: string, b: string)
    ensures a == b || Below(a, b) || Below(b, a)
    decreases |a|
  {
    if |a| > 0 && |b| > 0 && a[0] == b[0] {
      BelowTotal(a[1..], b[1..]);
      if a[1..] == b[1..] {
        assert a == [a[0]] + a[1..] && b == [b[0]] + b[1..];
      }
    }
  }

  lemma BelowAsymmetric(a: string, b: string)
    requires Below(a, b)
    ensures !Below(b, a)
  {
    if Below(b, a) {
      BelowTransitive(a, b, a);
      BelowIrreflexive(a);
    }
  }

  /** `m` is the least element of `s`. */
  predicate IsLeast(m: string, s: set<string>) {
    m in s && forall y :: y in s && y != m ==> Below(m, y)
  }

  lemma {:induction false} LeastExists(s: set<string>)
    requires s != {}
    ensures exists m :: IsLeast(m, s)
    decreases |s|
  {
    var x :| x in s;
    if s - {x} == {} {
      assert s == {x};
      assert IsLeast(x, s);
    } else {
      LeastExists(s - {x});
      var m :| IsLeast(m, s - {x});
      BelowTotal(m, x);
      if Below(m, x) {
        assert IsLeast(m, s);
      } else {
        forall y | y in s && y != x ensures Below(x, y) {
          if y != m {
            BelowTransitive(x, m, y);
          }
        }
        assert IsLeast(x, s);
      }
    }
  }

  lemma LeastUnique(m: string, n: string, s: set<string>)
    requires IsLeast(m, s) && IsLeast(n, s)
    ensures m == n
  {
    if m != n {
      BelowAsymmetric(m, n);
    }
  }

  lemma LeastIsUnique(s: set<string>)
    ensures forall m, n :: IsLeast(m, s) && IsLeast(n, s) ==> m == n
  {
    forall m, n | IsLeast(m, s) && IsLeast(n, s) ensures m == n {
      LeastUnique(m, n, s);
    }
  }

  /** Strictly increasing in string order. */
  ghost predicate StrictlySorted(ks: seq<string>) {
    forall i, j :: 0 <= i < j < |ks| ==> Below(ks[i], ks[j])
  }

  /** `Object.keys(obj).sort()`: the keys in increasing string order. */
  function SortedKeys(s: set<string>): (ks: seq<string>)
    ensures |ks| == |s| && (forall k :: k in ks <==> k in s)
    ensures StrictlySorted(ks)
    decreases |s|
  {
    if s == {} then []
    else
      LeastExists(s);
      LeastIsUnique(s);
      var m :| IsLeast(m, s);
      var rest := SortedKeys(s - {m});
      [m] + rest
  }

  /** A strictly sorted listing of a set is unique. */
  lemma {:induction false} SortedListingUnique(a: seq<string>, b: seq<string>)
    requires StrictlySorted(a) && StrictlySorted(b)
    requires forall k :: k in a <==> k in b
    ensures a == b
    decreases |a|
  {
    assert a != [] ==> a[0] in b;
    assert b != [] ==> b[0] in a;
    if a != [] {
      if a[0] != b[0] {
        assert a[0] in a && b[0] in b;
        var i :| 0 <= i < |b| && b[i] == a[0];
        var j :| 0 <= j < |a| && a[j] == b[0];
        assert i > 0 && j > 0;
        BelowAsymmetric(a[0], a[j]);
      }
      forall k ensures k in a[1..] <==> k in b[1..] {
        if k in a[1..] {
          var i :| 1 <= i < |a| && a[i] == k;
          BelowIrreflexive(a[0]);
          assert k != a[0];
          assert k in b;
        }
        if k in b[1..] {
          var i :| 1 <= i < |b| && b[i] == k;
          BelowIrreflexive(b[0]);
          assert k != b[0];
          assert k in a;
        }
      }
      SortedListingUnique(a[1..], b[1..]);
    }
  }

  // ---------------------------------------------------------------------------
  // getEquals
  // ---------------------------------------------------------------------------

  /** The keys after `key` in `keys` (string order) holding the same function as `key`. */
  function Others(obj: map<string, Prop>, keys: seq<string>, key: string): (r: seq<string>)
    requires forall k :: k in keys ==> k in obj
    requires key in obj
    ensures forall k :: k in r <==> k in keys && Below(key, k) && SameFunction(obj[key], obj[k])
    ensures |r| <= |keys|
    decreases |keys|
  {
    if keys == [] then []
    else
      var rest := Others(obj, keys[1..], key);
      if Below(key, keys[0]) && SameFunction(obj[key], obj[keys[0]]) then
        [keys[0]] + rest
      else rest
  }

  /** `Others` keeps the order of `keys`: its result is a subsequence. */
  lemma {:induction false} OthersSorted(obj: map<string, Prop>, keys: seq<string>, key: string)
    requires forall k :: k in keys ==> k in obj
    requires key in obj
    requires StrictlySorted(keys)
    ensures StrictlySorted(Others(obj, keys, key))
    decreases |keys|
  {
    if keys != [] {
      OthersSorted(obj, keys[1..], key);
      var rest := Others(obj, keys[1..], key);
      var r := Others(obj, keys, key);
      if r != rest {
        assert r == [keys[0]] + rest;
        forall i, j | 0 <= i < j < |r| ensures Below(r[i], r[j]) {
          if i == 0 {
            assert r[j] in rest;
            var m :| 0 <= m < |keys[1..]| && keys[1..][m] == r[j];
            assert keys[m + 1] == r[j];
          } else {
            assert r[i] == rest[i - 1] && r[j] == rest[j - 1];
          }
        }
      }
    }
  }

  /** The group `getEquals` forms for `key`: `key` then its later aliases; only kept with two or more keys. */
  function Group(obj: map<string, Prop>, keys: seq<string>, key: string): seq<string>
    requires forall k :: k in keys ==> k in obj
    requires key in obj
  {
    [key] + Others(obj, keys, key)
  }

  /**
   * The loop of `getEquals` over `outer`, as written: its check `matches.indexOf(key)`
   * searches an array of arrays for a string and never skips, so every function
   * key with a later alias starts a group.
   */
  function GroupsAsWritten(obj: map<string, Prop>, keys: seq<string>, outer: seq<string>): (r: seq<seq<string>>)
    requires forall k :: k in keys ==> k in obj
    requires forall k :: k in outer ==> k in obj
    ensures forall g :: g in r ==> |g| >= 2 && g[0] in outer
    decreases |outer|
  {
    if outer == [] then []
    else
      var key := outer[0];
      var rest := GroupsAsWritten(obj, keys, outer[1..]);
      if !obj[key].Method? then rest
      else
        var others := Others(obj, keys, key);
        if |others| > 0 then [Group(obj, keys, key)] + rest else rest
  }

  /** `getEquals(obj)` as written. */
  function GetEquals(obj: map<string, Prop>): seq<seq<string>> {
    var keys := SortedKeys(obj.Keys);
    GroupsAsWritten(obj, keys, keys)
  }

  /** Every group the loop emits is the group of a function-valued key of `outer` with a later alias. */
  lemma {:induction false} GroupsAreGroups(obj: map<string, Prop>, keys: seq<string>, outer: seq<string>)
    requires forall k :: k in keys ==> k in obj
    requires forall k :: k in outer ==> k in obj
    ensures forall g :: g in GroupsAsWritten(obj, keys, outer) ==>
      g[0] in outer && obj[g[0]].Method? && |Others(obj, keys, g[0])| > 0 && g == Group(obj, keys, g[0])
    decreases |outer|
  {
    if outer != [] {
      GroupsAreGroups(obj, keys, outer[1..]);
    }
  }

  /** A group starts at `key` of `outer` exactly when `key` holds a function with a later alias. */
  lemma {:induction false} GroupStartsAt(obj: map<string, Prop>, keys: seq<string>, outer: seq<string>, key: string)
    requires forall k :: k in keys ==> k in obj
    requires forall k :: k in outer ==> k in obj
    requires key in outer
    ensures (exists g :: g in GroupsAsWritten(obj, keys, outer) && g[0] == key) <==>
      obj[key].Method? && |Others(obj, keys, key)| > 0
    decreases |outer|
  {
    GroupsAreGroups(obj, keys, outer);
    if outer[0] != key {
      GroupStartsAt(obj, keys, outer[1..], key);
    } else if obj[key].Method? && |Others(obj, keys, key)| > 0 {
      assert GroupsAsWritten(obj, keys, outer)[0] == Group(obj, keys, key);
    }
  }

  /**
   * The group of a function-valued key: the key, then every strictly greater key
   * holding the identical function, in increasing order.
   */
  lemma GroupShape(obj: map<string, Prop>, keys: seq<string>, key: string)
    requires forall k :: k in keys ==> k in obj
    requires key in obj && obj[key].Method?
    requires StrictlySorted(keys)
    ensures var g := Group(obj, keys, key);
      && g[0] == key
      && StrictlySorted(g)
      && (forall k :: k in g[1..] <==> k in keys && Below(key, k) && SameFunction(obj[key], obj[k]))
    ensures |Group(obj, keys, key)| >= 2 <==> exists k :: k in keys && Below(key, k) && SameFunction(obj[key], obj[k])
  {
    var others := Others(obj, keys, key);
    var g := Group(obj, keys, key);
    OthersSorted(obj, keys, key);
    assert g[1..] == others;
    forall i, j | 0 <= i < j < |g| ensures Below(g[i], g[j]) {
      if i == 0 {
        assert g[j] in others;
      } else {
        assert g[i] == others[i - 1] && g[j] == others[j - 1];
      }
    }
    if exists k :: k in keys && Below(key, k) && SameFunction(obj[key], obj[k]) {
      var k :| k in keys && Below(key, k) && SameFunction(obj[key], obj[k]);
      assert k in others;
    }
    if |others| > 0 {
      assert others[0] in others;
    }
  }

  /**
   * `getEquals(obj)`: each group starts with a function-valued key, continues with
   * every strictly greater key holding the identical function, has at least two
   * keys, and a group starts at a key exactly when it holds a function with a
   * later alias.
   */
  lemma GetEqualsGroups(obj: map<string, Prop>)
    ensures forall g :: g in GetEquals(obj) ==>
      && |g| >= 2
      && g[0] in obj && obj[g[0]].Method?
      && StrictlySorted(g)
      && (forall k :: k in g[1..] <==> k in obj && Below(g[0], k) && SameFunction(obj[g[0]], obj[k]))
    ensures forall key :: key in obj ==>
      ((exists g :: g in GetEquals(obj) && g[0] == key) <==>
       obj[key].Method? && exists k :: k in obj && Below(key, k) && SameFunction(obj[key], obj[k]))
  {
    var keys := SortedKeys(obj.Keys);
    GroupsAreGroups(obj, keys, keys);
    forall g | g in GetEquals(obj)
      ensures && |g| >= 2
              && g[0] in obj && obj[g[0]].Method?
              && StrictlySorted(g)
              && (forall k :: k in g[1..] <==> k in obj && Below(g[0], k) && SameFunction(obj[g[0]], obj[k]))
    {
      GroupShape(obj, keys, g[0]);
    }
    forall key | key in obj
      ensures (exists g :: g in GetEquals(obj) && g[0] == key) <==>
        obj[key].Method? && exists k :: k in obj && Below(key, k) && SameFunction(obj[key], obj[k])
    {
      GroupStartsAt(obj, keys, keys, key);
      if obj[key].Method? {
        GroupShape(obj, keys, key);
      }
    }
  }

  /** `getEquals` result for two objects agrees when keys, function-ness and identity among functions agree. */
  ghost predicate SameAliasing(a: map<string, Prop>, b: map<string, Prop>) {
    && a.Keys == b.Keys
    && (forall k :: k in a ==> (a[k].Method? <==> b[k].Method?))
    && (forall k, k' :: k in a && k' in a ==> (SameFunction(a[k], a[k']) <==> SameFunction(b[k], b[k'])))
  }

  lemma {:induction false} OthersDependOnAliasing(a: map<string, Prop>, b: map<string, Prop>, keys: seq<string>, key: string)
    requires SameAliasing(a, b)
    requires forall k :: k in keys ==> k in a
    requires key in a
    ensures Others(a, keys, key) == Others(b, keys, key)
    decreases |keys|
  {
    if keys != [] {
      OthersDependOnAliasing(a, b, keys[1..], key);
    }
  }

  lemma {:induction false} GroupsDependOnAliasing(a: map<string, Prop>, b: map<string, Prop>, keys: seq<string>, outer: seq<string>)
    requires SameAliasing(a, b)
    requires forall k :: k in keys ==> k in a
    requires forall k :: k in outer ==> k in a
    ensures GroupsAsWritten(a, keys, outer) == GroupsAsWritten(b, keys, outer)
    decreases |outer|
  {
    if outer != [] {
      GroupsDependOnAliasing(a, b, keys, outer[1..]);
      OthersDependOnAliasing(a, b, keys, outer[0]);
    }
  }

  /** `checkEqual(obj, unpatchedObj)`: the groups of identical methods are the same before and after patching. */
  predicate CheckEqual(obj: map<string, Prop>, unpatched: map<string, Prop>) {
    GetEquals(unpatched) == GetEquals(obj)
  }

  /**
   * `getEquals` depends only on the sorted keys and the identity relation among
   * function values, so `checkEqual` passes whenever patching keeps that relation.
   */
  lemma CheckEqualPassesWhenAliasingKept(obj: map<string, Prop>, unpatched: map<string, Prop>)
    requires SameAliasing(unpatched, obj)
    ensures CheckEqual(obj, unpatched)
  {
    var keys := SortedKeys(unpatched.Keys);
    GroupsDependOnAliasing(unpatched, obj, keys, keys);
  }

  /** Replacing every function by a wrapper, one wrapper per original function (`wrapperOf` injective). */
  function WrapAll(obj: map<string, Prop>, wrapperOf: nat -> nat): (r: map<string, Prop>)
    ensures r.Keys == obj.Keys
    ensures forall k :: k in obj && obj[k].Method? ==> r[k] == Method(wrapperOf(obj[k].id), true)
    ensures forall k :: k in obj && !obj[k].Method? ==> r[k] == obj[k]
  {
    map k | k in obj :: if obj[k].Method? then Method(wrapperOf(obj[k].id), true) else obj[k]
  }

  /** Wrapping each distinct function once, sharing the wrapper among its aliases, keeps method equality. */
  lemma WrappingPerFunctionKeepsEquality(obj: map<string, Prop>, wrapperOf: nat -> nat)
    requires forall x, y :: wrapperOf(x) == wrapperOf(y) ==> x == y
    ensures CheckEqual(WrapAll(obj, wrapperOf), obj)
  {
    CheckEqualPassesWhenAliasingKept(WrapAll(obj, wrapperOf), obj);
  }

  // ---------------------------------------------------------------------------
  // getEquals with the skip it evidently intends
  // ---------------------------------------------------------------------------

  /**
   * The loop of `getEquals` with the skip testing `matched`, the keys already
   * placed as a later alias in some group.
   */
  function GroupsIntended(obj: map<string, Prop>, keys: seq<string>, outer: seq<string>, matched: set<string>): (r: seq<seq<string>>)
    requires forall k :: k in keys ==> k in obj
    requires forall k :: k in outer ==> k in obj
    ensures forall g :: g in r ==> |g| >= 2 && g[0] in outer && g[0] !in matched
    decreases |outer|
  {
    if outer == [] then []
    else
      var key := outer[0];
      if !obj[key].Method? || key in matched then GroupsIntended(obj, keys, outer[1..], matched)
      else
        var others := Others(obj, keys, key);
        if |others| > 0 then
          [Group(obj, keys, key)] + GroupsIntended(obj, keys, outer[1..], matched + (set k | k in others))
        else GroupsIntended(obj, keys, outer[1..], matched)
  }

  /** `getEquals` with the intended skip. */
  function GetEqualsIntended(obj: map<string, Prop>): seq<seq<string>> {
    var keys := SortedKeys(obj.Keys);
    GroupsIntended(obj, keys, keys, {})
  }

  /**
   * Groups formed from keys after `key` never contain `key` nor any of its later
   * aliases, once those aliases are marked as matched.
   */
  lemma {:induction false} LaterGroupsAvoid(obj: map<string, Prop>, keys: seq<string>, outer: seq<string>,
                                             matched: set<string>, key: string)
    requires forall k :: k in keys ==> k in obj
    requires forall k :: k in outer ==> k in obj && k in keys && Below(key, k)
    requires key in obj && obj[key].Method?
    requires forall k :: k in Others(obj, keys, key) ==> k in matched
    ensures forall g, k :: g in GroupsIntended(obj, keys, outer, matched) && k in g ==>
      k != key && k !in Others(obj, keys, key)
    decreases |outer|
  {
    if outer != [] {
      var k0 := outer[0];
      if !obj[k0].Method? || k0 in matched {
        LaterGroupsAvoid(obj, keys, outer[1..], matched, key);
      } else {
        var others0 := Others(obj, keys, k0);
        if |others0| > 0 {
          var m' := matched + (set k | k in others0);
          LaterGroupsAvoid(obj, keys, outer[1..], m', key);
          forall k | k in Group(obj, keys, k0) ensures k != key && k !in Others(obj, keys, key) {
            BelowIrreflexive(key);
            if k == k0 {
              assert k0 !in Others(obj, keys, key);
            } else {
              assert k in others0;
              if k == key {
                BelowAsymmetric(key, k0);
              }
              assert k0 in keys && Below(key, k0);
              assert !SameFunction(obj[key], obj[k0]);
              assert !SameFunction(obj[key], obj[k]);
            }
          }
        } else {
          LaterGroupsAvoid(obj, keys, outer[1..], matched, key);
        }
      }
    }
  }

  /** No key is in two groups. */
  ghost predicate Disjoint(r: seq<seq<string>>) {
    forall i, j, k :: 0 <= i < j < |r| && k in r[i] ==> k !in r[j]
  }

  lemma DisjointCons(g: seq<string>, tail: seq<seq<string>>)
    requires Disjoint(tail)
    requires forall t, k :: t in tail && k in g ==> k !in t
    ensures Disjoint([g] + tail)
  {
    var r := [g] + tail;
    forall i, j, k | 0 <= i < j < |r| && k in r[i] ensures k !in r[j] {
      assert r[j] == tail[j - 1];
      if i > 0 {
        assert r[i] == tail[i - 1];
      }
    }
  }

  /** With the intended skip, no key appears in two groups when the loop visits the sorted keys. */
  lemma {:induction false} IntendedGroupsDisjoint(obj: map<string, Prop>, keys: seq<string>, outer: seq<string>, matched: set<string>)
    requires forall k :: k in keys ==> k in obj
    requires forall k :: k in outer ==> k in obj && k in keys
    requires StrictlySorted(outer)
    ensures Disjoint(GroupsIntended(obj, keys, outer, matched))
    decreases |outer|
  {
    if outer != [] {
      var key := outer[0];
      if !obj[key].Method? || key in matched {
        IntendedGroupsDisjoint(obj, keys, outer[1..], matched);
      } else {
        var others := Others(obj, keys, key);
        if |others| > 0 {
          var m' := matched + (set k | k in others);
          IntendedGroupsDisjoint(obj, keys, outer[1..], m');
          forall k | k in outer[1..] ensures Below(key, k) {
            var i :| 1 <= i < |outer| && outer[i] == k;
          }
          LaterGroupsAvoid(obj, keys, outer[1..], m', key);
          var g := Group(obj, keys, key);
          var tail := GroupsIntended(obj, keys, outer[1..], m');
          assert forall k :: k in g ==> k == key || k in others;
          DisjointCons(g, tail);
          assert GroupsIntended(obj, keys, outer, matched) == [g] + tail;
        } else {
          IntendedGroupsDisjoint(obj, keys, outer[1..], matched);
        }
      }
    }
  }

  /** Every key of the intended result is in exactly one group. */
  lemma GetEqualsIntendedDisjoint(obj: map<string, Prop>)
    ensures Disjoint(GetEqualsIntended(obj))
  {
    var keys := SortedKeys(obj.Keys);
    IntendedGroupsDisjoint(obj, keys, keys, {});
  }

  /** Three keys holding one function. */
  function ThreeAliases(): map<string, Prop> {
    map["a" := Method(7, false), "b" := Method(7, false), "c" := Method(7, false)]
  }

  lemma ThreeAliasesKeys()
    ensures SortedKeys(ThreeAliases().Keys) == ["a", "b", "c"]
  {
    var keys := ["a", "b", "c"];
    assert Below("a", "b") && Below("b", "c") && Below("a", "c");
    assert StrictlySorted(keys);
    SortedListingUnique(SortedKeys(ThreeAliases().Keys), keys);
  }

  lemma ThreeAliasesOthers()
    ensures var obj := ThreeAliases();
      var keys := ["a", "b", "c"];
      && Others(obj, keys, "a") == ["b", "c"]
      && Others(obj, keys, "b") == ["c"]
      && Others(obj, keys, "c") == []
  {
    var obj := ThreeAliases();
    var keys := ["a", "b", "c"];
    assert Below("a", "b") && Below("b", "c") && Below("a", "c");
    assert !Below("b", "a") && !Below("c", "b") && !Below("c", "a");
    assert !Below("a", "a") && !Below("b", "b") && !Below("c", "c");
    assert keys[1..] == ["b", "c"] && keys[1..][1..] == ["c"] && keys[1..][1..][1..] == [];
  }

  lemma ThreeAliasesAsWrittenSteps()
    ensures GroupsAsWritten(ThreeAliases(), ["a", "b", "c"], ["a", "b", "c"]) == [["a", "b", "c"], ["b", "c"]]
  {
    var obj := ThreeAliases();
    var keys := ["a", "b", "c"];
    ThreeAliasesOthers();
    assert keys[1..] == ["b", "c"] && keys[1..][1..] == ["c"] && keys[1..][1..][1..] == [];
    var r3 := GroupsAsWritten(obj, keys, ["c"]);
    assert r3 == [];
    var r2 := GroupsAsWritten(obj, keys, ["b", "c"]);
    assert r2 == [Group(obj, keys, "b")] + r3;
    assert Group(obj, keys, "b") == ["b", "c"];
    assert GroupsAsWritten(obj, keys, keys) == [Group(obj, keys, "a")] + r2;
    assert Group(obj, keys, "a") == ["a", "b", "c"];
  }

  lemma ThreeAliasesIntendedSteps()
    ensures GroupsIntended(ThreeAliases(), ["a", "b", "c"], ["a", "b", "c"], {}) == [["a", "b", "c"]]
  {
    var obj := ThreeAliases();
    var keys := ["a", "b", "c"];
    ThreeAliasesOthers();
    assert keys[1..] == ["b", "c"] && keys[1..][1..] == ["c"] && keys[1..][1..][1..] == [];
    var m: set<string> := (set k | k in ["b", "c"]);
    assert "b" in m && "c" in m;
    var r3 := GroupsIntended(obj, keys, ["c"], m);
    assert r3 == [];
    var r2 := GroupsIntended(obj, keys, ["b", "c"], m);
    assert r2 == r3;
    assert GroupsIntended(obj, keys, keys, {}) == [Group(obj, keys, "a")] + r2;
    assert Group(obj, keys, "a") == ["a", "b", "c"];
  }

  /** As written, three aliased keys yield overlapping groups; the intended skip yields one. */
  lemma ThreeAliasesOverlap()
    ensures GetEquals(ThreeAliases()) == [["a", "b", "c"], ["b", "c"]]
    ensures GetEqualsIntended(ThreeAliases()) == [["a", "b", "c"]]
  {
    ThreeAliasesKeys();
    ThreeAliasesAsWrittenSteps();
    ThreeAliasesIntendedSteps();
  }

  // ---------------------------------------------------------------------------
  // checkPatched
  // ---------------------------------------------------------------------------

  /** The name matches `/^[A-Z_]/`. */
  predicate StartsUpperOrUnderscore(name: string) {
    |name| > 0 && ('A' <= name[0] <= 'Z' || name[0] == '_')
  }

  /** A property `checkPatched` registers a test for. */
  predicate Checked(name: string, p: Prop, ignore: seq<string>) {
    !StartsUpperOrUnderscore(name) && name !in ignore && p.Method?
  }

  /**
   * `checkPatched(obj, ignore)` over the properties `_.forIn` visits, in order: one
   * test per checked method, named after it, passing exactly when it is marked
   * `__wrapped`.
   */
  function CheckPatched(props: seq<(string, Prop)>, ignore: seq<string>): (tests: seq<(string, bool)>)
    ensures |tests| <= |props|
    ensures forall t :: t in tests ==> exists p :: p in props && Checked(p.0, p.1, ignore) && t == (p.0, p.1.wrapped)
    ensures forall p :: p in props && Checked(p.0, p.1, ignore) ==> (p.0, p.1.wrapped) in tests
    decreases |props|
  {
    if props == [] then []
    else
      var (name, p) := props[0];
      var rest := CheckPatched(props[1..], ignore);
      if Checked(name, p, ignore) then [(name, p.wrapped)] + rest else rest
  }

  /** Every registered test passes exactly when every checked method is marked `__wrapped`. */
  lemma CheckPatchedAllPass(props: seq<(string, Prop)>, ignore: seq<string>)
    ensures (forall t :: t in CheckPatched(props, ignore) ==> t.1) <==>
      (forall p :: p in props && Checked(p.0, p.1, ignore) ==> p.1.wrapped)
  {
    var tests := CheckPatched(props, ignore);
    if forall t :: t in tests ==> t.1 {
      forall p | p in props && Checked(p.0, p.1, ignore) ensures p.1.wrapped {
        assert (p.0, p.1.wrapped) in tests;
      }
    }
    if forall p :: p in props && Checked(p.0, p.1, ignore) ==> p.1.wrapped {
      forall t | t in tests ensures t.1 {
        var p :| p in props && Checked(p.0, p.1, ignore) && t == (p.0, p.1.wrapped);
      }
    }
  }

  /** A single property yields its own test exactly when it is checked. */
  lemma CheckPatchedSingle(name: string, p: Prop, ignore: seq<string>)
    ensures CheckPatched([(name, p)], ignore) == (if Checked(name, p, ignore) then [(name, p.wrapped)] else [])
  {
  }

  /**
   * Tests are registered in the order `_.forIn` visits the properties, one per
   * checked method: the tests for a listing split in two are the tests for the
   * first part followed by those for the second.
   */
  lemma {:induction false} CheckPatchedInOrder(a: seq<(string, Prop)>, b: seq<(string, Prop)>, ignore: seq<string>)
    ensures CheckPatched(a + b, ignore) == CheckPatched(a, ignore) + CheckPatched(b, ignore)
    decreases |a|
  {
    if a == [] {
      assert a + b == b;
    } else {
      var ab := a + b;
      assert ab[0] == a[0];
      assert ab[1..] == a[1..] + b;
      CheckPatchedInOrder(a[1..], b, ignore);
      var head := if Checked(a[0].0, a[0].1, ignore) then [(a[0].0, a[0].1.wrapped)] else [];
      assert CheckPatched(ab, ignore) == head + CheckPatched(ab[1..], ignore);
      assert CheckPatched(a, ignore) == head + CheckPatched(a[1..], ignore);
    }
  }
}

=== FILE: run_test.dfy ===
/**
 * Test registration helpers: `test`/`testMultiple` argument shifting, `_runTest`,
 * and `callbackAggregator`, which waits for a fixed number of completions and
 * passes on the first error.
 */
module RunTest {
  import opened Wrappers
  import Js

  /** How many times `testMultiple` runs the test function. */
  const TestMultipleRounds: nat := 3

  /**
   * The closure returned by `callbackAggregator(n, cb)`: the countdown and the
   * first truthy error received (`undefined` until one arrives).
   */
  datatype Aggregator = Aggregator(remaining: int, err: Js.Val)

  function NewAggregator(n: int): Aggregator {
    Aggregator(n, Js.Undefined)
  }

  /** Nothing or a truthy error is held: the only states the closure can reach. */
  predicate Reachable(a: Aggregator) {
    a.err == Js.Undefined || Js.Truthy(a.err)
  }

  /**
   * One call of the aggregated callback with `thisErr`: the new state, and the
   * error `cb` is called with when this call brings the countdown to zero.
   */
  function Call(a: Aggregator, thisErr: Js.Val): (r: (Aggregator, Option<Js.Val>))
    ensures r.0.remaining == a.remaining - 1
    ensures Reachable(a) ==> Reachable(r.0)
    ensures Js.Truthy(a.err) ==> r.0.err == a.err
    ensures r.1.Some? <==> a.remaining == 1
    ensures r.1.Some? ==> r.1.value == r.0.err
  {
    var err := if Js.Truthy(thisErr) && !Js.Truthy(a.err) then thisErr else a.err;
    var remaining := a.remaining - 1;
    (Aggregator(remaining, err), if remaining == 0 then Some(err) else None)
  }

  /** Feeds the calls `errs` in order: the final state and every error `cb` received, in order. */
  function Feed(a: Aggregator, errs: seq<Js.Val>): (r: (Aggregator, seq<Js.Val>))
    decreases |errs|
  {
    if errs == [] then (a, [])
    else
      var (a', fired) := Call(a, errs[0]);
      var (a'', rest) := Feed(a', errs[1..]);
      (a'', (if fired.Some? then [fired.value] else []) + rest)
  }

  /** The first truthy value of `errs` if `held` is not already truthy; `held` otherwise. */
  ghost function FirstError(held: Js.Val, errs: seq<Js.Val>): Js.Val
    decreases |errs|
  {
    if Js.Truthy(held) || errs == [] then held
    else if Js.Truthy(errs[0]) then errs[0]
    else FirstError(held, errs[1..])
  }

  /**
   * From any reachable state, the aggregated callback fires exactly once if the
   * countdown is positive and reached within `errs`, at that call, with the first
   * error received up to it; otherwise never.
   */
  lemma {:induction false} FeedFires(a: Aggregator, errs: seq<Js.Val>)
    requires Reachable(a)
    ensures var fired := Feed(a, errs).1;
      && (1 <= a.remaining <= |errs| ==> fired == [FirstError(a.err, errs[..a.remaining])])
      && (!(1 <= a.remaining <= |errs|) ==> fired == [])
    decreases |errs|
  {
    if errs != [] {
      var (a', f) := Call(a, errs[0]);
      FeedFires(a', errs[1..]);
      if 2 <= a.remaining <= |errs| {
        assert errs[..a.remaining][1..] == errs[1..][..a'.remaining];
        FirstErrorStep(a.err, errs[..a.remaining]);
      }
      if a.remaining == 1 {
        assert errs[..1] == [errs[0]];
        assert FirstError(a.err, errs[..1]) == a'.err by {
          FirstErrorStep(a.err, errs[..1]);
        }
      }
    }
  }

  /** One step of `FirstError`, taking the head of `errs` into the held value. */
  lemma FirstErrorStep(held: Js.Val, errs: seq<Js.Val>)
    requires held == Js.Undefined || Js.Truthy(held)
    requires errs != []
    ensures FirstError(held, errs) ==
      FirstError(if Js.Truthy(errs[0]) && !Js.Truthy(held) then errs[0] else held, errs[1..])
  {
  }

  /**
   * `callbackAggregator(n, cb)` with `n >= 1` calls `cb` exactly once, on the n-th
   * call, with the first truthy error among the first n calls; an earlier error
   * does not make it fire sooner, and calls after the n-th are ignored.
   */
  lemma AggregatorCallsBackOnce(n: int, errs: seq<Js.Val>, k: nat)
    requires 1 <= n && k <= |errs|
    ensures |Feed(NewAggregator(n), errs[..k]).1| == (if k >= n then 1 else 0)
    ensures k >= n ==> Feed(NewAggregator(n), errs[..k]).1 == [FirstError(Js.Undefined, errs[..n])]
  {
    FeedFires(NewAggregator(n), errs[..k]);
    if k >= n {
      assert errs[..k][..n] == errs[..n];
    }
  }

  /** With a count of zero or less the countdown never reaches zero: `cb` is never called. */
  lemma AggregatorNeverFiresWithoutCount(n: int, errs: seq<Js.Val>)
    requires n <= 0
    ensures Feed(NewAggregator(n), errs).1 == []
  {
    FeedFires(NewAggregator(n), errs);
  }

  /** The positional arguments of `test(name, fn, options)` after normalisation. */
  datatype TestArgs = TestArgs(name: Js.Val, fn: Js.Val, options: Js.Val)

  /** A function in first position becomes `fn`, the name becomes `''`, and the second argument the options. */
  function ShiftArgs(h: Js.Heap, name: Js.Val, fn: Js.Val, options: Js.Val): (r: TestArgs)
    ensures Js.IsFunction(h, name) ==> r == TestArgs(Js.Str(""), name, fn)
    ensures !Js.IsFunction(h, name) ==> r == TestArgs(name, fn, options)
    ensures !Js.IsFunction(h, r.name)
  {
    if Js.IsFunction(h, name) then TestArgs(Js.Str(""), name, fn) else TestArgs(name, fn, options)
  }

  /** Normalising twice is normalising once. */
  lemma ShiftArgsIdempotent(h: Js.Heap, name: Js.Val, fn: Js.Val, options: Js.Val)
    ensures var r := ShiftArgs(h, name, fn, options);
      ShiftArgs(h, r.name, r.fn, r.options) == r
  {
  }

  /** What the test function does synchronously when `_runTest` calls it with the Test object. */
  datatype SyncOutcome = Returned | Threw(err: Js.Val)

  /**
   * `_runTest(fn, done)`: the calls `done` receives synchronously; a thrown
   * exception is passed to `done`, anything else is left to the Test object.
   */
  function RunOnce(outcome: SyncOutcome): (calls: seq<Js.Val>)
    ensures outcome.Threw? ==> calls == [outcome.err]
    ensures outcome.Returned? ==> calls == []
  {
    if outcome.Threw? then [outcome.err] else []
  }

  /**
   * The `it` body registered by `testMultiple`: one aggregated `done` shared by
   * `TestMultipleRounds` runs of the test function, where `outcome(i)` is what the
   * test function does in run `i`. Returns the aggregator's state and the errors
   * the real `done` has received by the time the loop ends.
   */
  method RunMultiple(outcome: nat -> SyncOutcome) returns (agg: Aggregator, fired: seq<Js.Val>, reports: seq<Js.Val>)
    ensures |reports| <= TestMultipleRounds
    ensures forall i :: 0 <= i < |reports| ==> exists j :: 0 <= j < TestMultipleRounds && outcome(j) == Threw(reports[i])
    ensures (agg, fired) == Feed(NewAggregator(TestMultipleRounds), reports)
    ensures |fired| <= 1
    ensures |fired| == 1 <==> forall j :: 0 <= j < TestMultipleRounds ==> outcome(j).Threw?
  {
    agg := NewAggregator(TestMultipleRounds);
    fired := [];
    reports := [];
    var i := 0;
    while i < TestMultipleRounds
      invariant 0 <= i <= TestMultipleRounds
      invariant |reports| <= i
      invariant |reports| == i <==> forall j :: 0 <= j < i ==> outcome(j).Threw?
      invariant forall k :: 0 <= k < |reports| ==> exists j :: 0 <= j < i && outcome(j) == Threw(reports[k])
      invariant (agg, fired) == Feed(NewAggregator(TestMultipleRounds), reports)
      invariant Reachable(agg) && agg.remaining == TestMultipleRounds - |reports|
      invariant |fired| == (if |reports| == TestMultipleRounds then 1 else 0)
    {
      var calls := RunOnce(outcome(i));
      if calls != [] {
        FeedAppend(NewAggregator(TestMultipleRounds), reports, calls[0]);
        var (agg', f) := Call(agg, calls[0]);
        agg := agg';
        fired := fired + (if f.Some? then [f.value] else []);
        reports := reports + [calls[0]];
      }
      i := i + 1;
    }
  }

  /** Feeding one more call continues from the state reached so far. */
  lemma {:induction false} FeedAppend(a: Aggregator, errs: seq<Js.Val>, e: Js.Val)
    ensures var (a1, f1) := Feed(a, errs);
      var (a2, f2) := Call(a1, e);
      Feed(a, errs + [e]) == (a2, f1 + (if f2.Some? then [f2.value] else []))
    decreases |errs|
  {
    if errs != [] {
      var (a', fired) := Call(a, errs[0]);
      var head := if fired.Some? then [fired.value] else [];
      assert (errs + [e])[0] == errs[0];
      assert (errs + [e])[1..] == errs[1..] + [e];
      FeedAppend(a', errs[1..], e);
      var (b1, g1) := Feed(a', errs[1..]);
      var (b2, g2) := Call(b1, e);
      var tail := if g2.Some? then [g2.value] else [];
      assert Feed(a, errs) == (b1, head + g1);
      assert Feed(a', errs[1..] + [e]) == (b2, g1 + tail);
      assert Feed(a, errs + [e]) == (b2, head + (g1 + tail));
      assert head + (g1 + tail) == (head + g1) + tail;
    } else {
      assert errs + [e] == [e];
      assert [e][1..] == [];
      var (a2, f2) := Call(a, e);
      var x := if f2.Some? then [f2.value] else [];
      assert Feed(a, []) == (a, []);
      assert Feed(a2, []) == (a2, []);
      assert Feed(a, [e]) == (a2, x + []);
      assert x + [] == x && [] + x == x;
    }
  }
}

=== FILE: scenarios.dfy ===
/**
 * The patched prototype, the instrumented `bind` and `checkBound` together, as the
 * suite uses them: a handler attached with `then` inside a context is bound once
 * per handler position, to that context, and runs in it.
 */
module Scenarios {
  import opened Wrappers
  import opened Cls
  import opened Shim
  import opened BindLog
  import opened Checks

  /** `then(fulfill, reject)` on a promise: the arguments `_addCallbacks` receives. */
  function ThenArgs(fulfill: Value, reject: Value, promise: Value, receiver: Value, domain: Value): Args {
    Args(fulfill, reject, Other, promise, receiver, domain)
  }

  /** The log after the namespace's `beforeEach` reset and a call to the patched `_addCallbacks`. */
  function LogAfterAttach(log: Log, m: Method, active: Option<Ctx>, self: Value, a: Args): Log {
    var binds := Invoke(m, active, self, a).1;
    BindAll(Reset(log), active, binds)
  }

  lemma OneWrapperBinds(id: nat, active: Option<Ctx>, self: Value, a: Args)
    ensures Invoke(NsAddCallbacks(Native(id)), active, self, a).1 == RewriteArgs(active, a).1
  {
  }

  /**
   * A fresh handler attached once with `then` inside context `c`, on a prototype
   * patched once, passes `checkBound(handler, c)` with default options and, when
   * bluebird later calls it, runs in `c` whatever context is current then.
   */
  lemma ThenInContextPassesCheckBound(ns: Namespace, proto: Proto, id: nat, log: Log, c: Ctx, h: nat,
                                      self: Value, promise: Value, receiver: Value, domain: Value, ambient: Option<Ctx>)
    requires IsFunction(ns.bind)
    requires AddCallbacksKey in proto && proto[AddCallbacksKey] == Native(id)
    requires h !in log.perFn
    ensures Patch(Some(ns), proto).Ok?
    ensures var m := Patch(Some(ns), proto).value[AddCallbacksKey];
      var a := ThenArgs(Fn(h), Other, promise, receiver, domain);
      && CheckBound(LogAfterAttach(log, m, Some(c), self, a), Fn(h), Some(c), DefaultOptions).None?
      && ObservedContext(Invoke(m, Some(c), self, a).0.args.fulfill, ambient) == Some(c)
  {
    var m := Patch(Some(ns), proto).value[AddCallbacksKey];
    var a := ThenArgs(Fn(h), Other, promise, receiver, domain);
    OneWrapperBinds(id, Some(c), self, a);
    var binds := Invoke(m, Some(c), self, a).1;
    assert binds == [Fn(h)];
    var after := LogAfterAttach(log, m, Some(c), self, a);
    BindAllLogs(Reset(log), Some(c), binds);
    assert CountOriginal(binds, h) == 1;
    assert FnLog(after, h) == [Some(c)];
    assert after.nsBound[0] == NsRecord(h, Some(c));
    CheckBoundDefault(after, Fn(h), Some(c));
  }

  /**
   * `then(h, h)`: one handler in both positions is bound twice, both times to
   * `c`, so `checkBound` passes when told to expect two bindings and fails with
   * the default of one.
   */
  lemma SameHandlerTwiceNeedsTwoBindings(ns: Namespace, proto: Proto, id: nat, log: Log, c: Ctx, h: nat,
                                         self: Value, promise: Value, receiver: Value, domain: Value)
    requires IsFunction(ns.bind)
    requires AddCallbacksKey in proto && proto[AddCallbacksKey] == Native(id)
    requires h !in log.perFn
    ensures Patch(Some(ns), proto).Ok?
    ensures var m := Patch(Some(ns), proto).value[AddCallbacksKey];
      var after := LogAfterAttach(log, m, Some(c), self, ThenArgs(Fn(h), Fn(h), promise, receiver, domain));
      && CheckBound(after, Fn(h), Some(c), BoundOptions(2, false, false)).None?
      && CheckBound(after, Fn(h), Some(c), DefaultOptions) == Some(BoundWrongNumberOfTimes(2))
  {
    var m := Patch(Some(ns), proto).value[AddCallbacksKey];
    var a := ThenArgs(Fn(h), Fn(h), promise, receiver, domain);
    OneWrapperBinds(id, Some(c), self, a);
    var binds := Invoke(m, Some(c), self, a).1;
    assert binds == [Fn(h), Fn(h)];
    var after := LogAfterAttach(log, m, Some(c), self, a);
    BindAllLogs(Reset(log), Some(c), binds);
    assert CountOriginal(binds, h) == 2;
    assert FnLog(after, h) == [Some(c), Some(c)];
    assert after.nsBound == [NsRecord(h, Some(c)), NsRecord(h, Some(c))];
    CheckBoundPasses(after, Fn(h), Some(c), BoundOptions(2, false, false));
  }

  /** A handler attached inside `c` fails `checkBound` against any other context. */
  lemma OtherContextFailsCheckBound(ns: Namespace, proto: Proto, id: nat, log: Log, c: Ctx, d: Ctx, h: nat,
                                    self: Value, promise: Value, receiver: Value, domain: Value)
    requires IsFunction(ns.bind)
    requires AddCallbacksKey in proto && proto[AddCallbacksKey] == Native(id)
    requires h !in log.perFn
    requires c != d
    ensures Patch(Some(ns), proto).Ok?
    ensures var m := Patch(Some(ns), proto).value[AddCallbacksKey];
      var after := LogAfterAttach(log, m, Some(c), self, ThenArgs(Fn(h), Other, promise, receiver, domain));
      CheckBound(after, Fn(h), Some(d), DefaultOptions) == Some(BoundToWrongContext(Some(d), Some(c)))
  {
    var m := Patch(Some(ns), proto).value[AddCallbacksKey];
    var a := ThenArgs(Fn(h), Other, promise, receiver, domain);
    OneWrapperBinds(id, Some(c), self, a);
    var binds := Invoke(m, Some(c), self, a).1;
    assert binds == [Fn(h)];
    var after := LogAfterAttach(log, m, Some(c), self, a);
    BindAllLogs(Reset(log), Some(c), binds);
    assert CountOriginal(binds, h) == 1;
    assert FnLog(after, h) == [Some(c)];
    assert BoundArray(after, Fn(h)) == Some([Some(c)]);
  }

  /**
   * Patching twice, which `patchBluebird` does not guard against, makes a single
   * `then(h)` bind `h` twice, so the suite's default `checkBound` fails.
   */
  lemma DoublePatchFailsCheckBound(ns: Namespace, proto: Proto, id: nat, log: Log, c: Ctx, h: nat,
                                   self: Value, promise: Value, receiver: Value, domain: Value)
    requires IsFunction(ns.bind)
    requires AddCallbacksKey in proto && proto[AddCallbacksKey] == Native(id)
    requires h !in log.perFn
    ensures Patch(Some(ns), proto).Ok?
    ensures Patch(Some(ns), Patch(Some(ns), proto).value).Ok?
    ensures var m := Patch(Some(ns), Patch(Some(ns), proto).value).value[AddCallbacksKey];
      var a := ThenArgs(Fn(h), Other, promise, receiver, domain);
      && CheckBound(LogAfterAttach(log, m, Some(c), self, a), Fn(h), Some(c), DefaultOptions) == Some(BoundWrongNumberOfTimes(2))
      && CheckRunContext(ObservedContext(Invoke(m, Some(c), self, a).0.args.fulfill, None), Some(c)).None?
  {
    var once := Patch(Some(ns), proto).value;
    var m := Patch(Some(ns), once).value[AddCallbacksKey];
    assert m == NsAddCallbacks(NsAddCallbacks(Native(id)));
    var a := ThenArgs(Fn(h), Other, promise, receiver, domain);
    var a' := RewriteArgs(Some(c), a).0;
    assert RewriteArgs(Some(c), a).1 == [Fn(h)];
    assert RewriteArgs(Some(c), a').1 == [a'.fulfill];
    OneWrapperBinds(id, Some(c), self, a');
    var binds := Invoke(m, Some(c), self, a).1;
    assert binds == [Fn(h), a'.fulfill];
    var after := LogAfterAttach(log, m, Some(c), self, a);
    BindAllLogs(Reset(log), Some(c), binds);
    assert CountOriginal(binds, h) == 2;
    assert FnLog(after, h) == [Some(c), Some(c)];
  }

  /**
   * `checkRunContext(c)` run by a handler attached with `then` inside `c`: the
   * handler the patched `_addCallbacks` hands bluebird passes whatever context is
   * ambient when it is called, while the same handler given to bluebird's own
   * `_addCallbacks` passes only when the ambient context happens to be `c`.
   */
  lemma RunContextNeedsPatch(ns: Namespace, proto: Proto, id: nat, c: Ctx, h: nat,
                             self: Value, promise: Value, receiver: Value, domain: Value, ambient: Option<Ctx>)
    requires IsFunction(ns.bind)
    requires AddCallbacksKey in proto && proto[AddCallbacksKey] == Native(id)
    ensures Patch(Some(ns), proto).Ok?
    ensures var m := Patch(Some(ns), proto).value[AddCallbacksKey];
      var a := ThenArgs(Fn(h), Other, promise, receiver, domain);
      CheckRunContext(ObservedContext(Invoke(m, Some(c), self, a).0.args.fulfill, ambient), Some(c)).None?
    ensures var a := ThenArgs(Fn(h), Other, promise, receiver, domain);
      var unpatched := Invoke(Native(id), Some(c), self, a).0.args.fulfill;
      CheckRunContext(ObservedContext(unpatched, ambient), Some(c)).None? <==> ambient == Some(c)
  {
  }

  /**
   * `checkNotBound(h)` after `then(h)` inside `c`: it passes when `_addCallbacks`
   * is bluebird's own and fails with "Function bound" once the prototype is patched.
   */
  lemma NotBoundOnlyWithoutPatch(ns: Namespace, proto: Proto, id: nat, log: Log, c: Ctx, h: nat,
                                 self: Value, promise: Value, receiver: Value, domain: Value)
    requires IsFunction(ns.bind)
    requires AddCallbacksKey in proto && proto[AddCallbacksKey] == Native(id)
    requires h !in log.perFn
    ensures Patch(Some(ns), proto).Ok?
    ensures var a := ThenArgs(Fn(h), Other, promise, receiver, domain);
      CheckNotBound(LogAfterAttach(log, Native(id), Some(c), self, a), Fn(h)).None?
    ensures var m := Patch(Some(ns), proto).value[AddCallbacksKey];
      var a := ThenArgs(Fn(h), Other, promise, receiver, domain);
      CheckNotBound(LogAfterAttach(log, m, Some(c), self, a), Fn(h)) == Some(FunctionBound)
  {
    var m := Patch(Some(ns), proto).value[AddCallbacksKey];
    var a := ThenArgs(Fn(h), Other, promise, receiver, domain);
    BindAllLogs(Reset(log), Some(c), []);
    assert CountOriginal([], h) == 0;
    OneWrapperBinds(id, Some(c), self, a);
    var binds := Invoke(m, Some(c), self, a).1;
    assert binds == [Fn(h)];
    BindAllLogs(Reset(log), Some(c), binds);
    assert CountOriginal(binds, h) == 1;
    assert FnLog(LogAfterAttach(log, m, Some(c), self, a), h) == [Some(c)];
  }
}

=== FILE: shim.dfy ===
/**
 * `patchBluebird(ns)`: checks that the namespace has a callable `bind`, then wraps
 * `_addCallbacks` on bluebird's prototype so that every function among its three
 * handler arguments is replaced by `ns.bind(handler)` before the original runs.
 */
module Shim {
  import opened Wrappers
  import opened Cls

  /** The six arguments of bluebird's `_addCallbacks`, in order. */
  datatype Args = Args(fulfill: Value, reject: Value, progress: Value,
                       promise: Value, receiver: Value, domain: Value)

  /**
   * A method held by a prototype property: one of bluebird's own functions, or the
   * `ns_addCallbacks` wrapper closed over the method it replaced.
   */
  datatype Method = Native(id: nat) | NsAddCallbacks(original: Method)

  type Proto = map<string, Method>

  const AddCallbacksKey := "_addCallbacks"

  datatype PatchError =
    | CannotReadBind      // `ns` is undefined or null: reading `ns.bind` throws
    | MustIncludeNamespace // TypeError "must include namespace to patch bluebird against"

  /** What the original bluebird function received: the receiver and the argument list. */
  datatype NativeCall = NativeCall(id: nat, self: Value, args: Args)

  /** Number of function-typed values among the handler arguments. */
  function FunctionCount(vs: seq<Value>): (n: nat)
    ensures n <= |vs|
  {
    if vs == [] then 0 else (if IsFunction(vs[0]) then 1 else 0) + FunctionCount(vs[1..])
  }

  lemma FunctionCountOfThree(x: Value, y: Value, z: Value)
    ensures FunctionCount([x, y, z]) ==
      (if IsFunction(x) then 1 else 0) + (if IsFunction(y) then 1 else 0) + (if IsFunction(z) then 1 else 0)
  {
    assert [z][1..] == [];
    assert FunctionCount([z]) == (if IsFunction(z) then 1 else 0);
    assert [y, z][1..] == [z];
    assert FunctionCount([y, z]) == (if IsFunction(y) then 1 else 0) + FunctionCount([z]);
    assert [x, y, z][1..] == [y, z];
  }

  /** The function-typed values of `vs`, in order. */
  function Functions(vs: seq<Value>): (r: seq<Value>)
    ensures |r| == FunctionCount(vs)
    ensures forall v :: v in r ==> v in vs && IsFunction(v)
    ensures forall v :: v in vs && IsFunction(v) ==> v in r
  {
    if vs == [] then [] else (if IsFunction(vs[0]) then [vs[0]] else []) + Functions(vs[1..])
  }

  function Handlers(a: Args): seq<Value> {
    [a.fulfill, a.reject, a.progress]
  }

  /**
   * One handler position: a function is replaced by `ns.bind(handler)` (and the bind
   * is recorded), anything else passes through with no bind.
   */
  function BindIfFunction(active: Option<Ctx>, h: Value): (r: (Value, seq<Value>))
    ensures IsFunction(h) ==> r.0 == BindTo(active, h, None) && r.1 == [h]
    ensures !IsFunction(h) ==> r.0 == h && r.1 == []
  {
    if IsFunction(h) then (BindTo(active, h, None), [h]) else (h, [])
  }

  /**
   * The argument rewriting done by `ns_addCallbacks`, with the handlers passed to
   * `ns.bind`, in call order.
   */
  function RewriteArgs(active: Option<Ctx>, a: Args): (r: (Args, seq<Value>))
    ensures r.0.promise == a.promise && r.0.receiver == a.receiver && r.0.domain == a.domain
    ensures forall i :: 0 <= i < 3 ==>
      (IsFunction(Handlers(a)[i]) ==> Handlers(r.0)[i] == BindTo(active, Handlers(a)[i], None)) &&
      (!IsFunction(Handlers(a)[i]) ==> Handlers(r.0)[i] == Handlers(a)[i])
    ensures r.1 == Functions(Handlers(a))
    ensures |r.1| == FunctionCount(Handlers(a))
    ensures forall v :: v in r.1 ==> v in Handlers(a) && IsFunction(v)
  {
    var (f, bf) := BindIfFunction(active, a.fulfill);
    var (j, bj) := BindIfFunction(active, a.reject);
    var (p, bp) := BindIfFunction(active, a.progress);
    FunctionCountOfThree(a.fulfill, a.reject, a.progress);
    assert [a.fulfill, a.reject, a.progress][1..] == [a.reject, a.progress];
    assert [a.reject, a.progress][1..] == [a.progress];
    assert [a.progress][1..] == [];
    (a.(fulfill := f, reject := j, progress := p), bf + bj + bp)
  }

  /**
   * Calls `m` with receiver `self` and arguments `a` while `active` is the
   * namespace's active context: the call that reaches bluebird's own function,
   * and every handler passed to `ns.bind` on the way.
   */
  function Invoke(m: Method, active: Option<Ctx>, self: Value, a: Args): (r: (NativeCall, seq<Value>))
    ensures r.0.self == self
    ensures r.0.args.promise == a.promise && r.0.args.receiver == a.receiver && r.0.args.domain == a.domain
    ensures m.Native? ==> r == (NativeCall(m.id, self, a), [])
    ensures forall v :: v in r.1 ==> IsFunction(v)
  {
    match m
    case Native(id) => (NativeCall(id, self, a), [])
    case NsAddCallbacks(original) =>
      var (a', binds) := RewriteArgs(active, a);
      var (call, inner) := Invoke(original, active, self, a');
      (call, binds + inner)
  }

  /**
   * `patchBluebird(ns)` applied to bluebird's prototype: fails before touching
   * anything unless `ns.bind` is a function; otherwise replaces `_addCallbacks`
   * by the wrapper and leaves every other property as it was.
   */
  function Patch(ns: Option<Namespace>, proto: Proto): (r: Result<Proto, PatchError>)
    ensures ns.None? <==> r == Err(CannotReadBind)
    ensures ns.Some? && !IsFunction(ns.value.bind) <==> r == Err(MustIncludeNamespace)
    ensures r.Ok? ==> r.value.Keys == proto.Keys
    ensures r.Ok? ==> forall k :: k in proto && k != AddCallbacksKey ==> r.value[k] == proto[k]
    ensures r.Ok? && AddCallbacksKey in proto ==>
      r.value[AddCallbacksKey] == NsAddCallbacks(proto[AddCallbacksKey])
  {
    if ns.None? then Err(CannotReadBind)
    else if !IsFunction(ns.value.bind) then Err(MustIncludeNamespace)
    else if AddCallbacksKey in proto then
      Ok(proto[AddCallbacksKey := NsAddCallbacks(proto[AddCallbacksKey])])
    else Ok(proto)
  }

  /**
   * The wrapper installed by one patch hands bluebird's function the same receiver
   * and the rewritten arguments, and binds exactly the function-typed handlers.
   */
  lemma WrapperDelegates(id: nat, active: Option<Ctx>, self: Value, a: Args)
    ensures Invoke(NsAddCallbacks(Native(id)), active, self, a).0 ==
      NativeCall(id, self, RewriteArgs(active, a).0)
    ensures |Invoke(NsAddCallbacks(Native(id)), active, self, a).1| == FunctionCount(Handlers(a))
  {
  }

  /** `p.then(h, h)`: the same function in both handler positions is bound twice. */
  lemma SameHandlerBoundTwice(active: Option<Ctx>, h: Value, self: Value, promise: Value, receiver: Value, domain: Value)
    requires IsFunction(h)
    ensures var a := Args(h, h, Other, promise, receiver, domain);
      RewriteArgs(active, a).1 == [h, h]
  {
  }

  /** Rewriting already rewritten arguments changes nothing: bound handlers rebind to the same original. */
  lemma {:induction false} RewriteIdempotent(active: Option<Ctx>, a: Args)
    ensures var a' := RewriteArgs(active, a).0;
      RewriteArgs(active, a').0 == a' && |RewriteArgs(active, a').1| == |RewriteArgs(active, a).1|
  {
    var a' := RewriteArgs(active, a).0;
    assert Handlers(a) == [a.fulfill, a.reject, a.progress];
    assert Handlers(a') == [a'.fulfill, a'.reject, a'.progress];
    FunctionCountOfThree(a.fulfill, a.reject, a.progress);
    FunctionCountOfThree(a'.fulfill, a'.reject, a'.progress);
  }

  /**
   * `patchBluebird` has no guard against a second call: patching twice nests two
   * wrappers, bluebird's function receives the same arguments as after one patch,
   * and every function-typed handler is bound twice.
   */
  lemma PatchTwiceBindsTwice(ns: Namespace, proto: Proto, id: nat, active: Option<Ctx>, self: Value, a: Args)
    requires IsFunction(ns.bind)
    requires AddCallbacksKey in proto && proto[AddCallbacksKey] == Native(id)
    ensures Patch(Some(ns), proto).Ok?
    ensures var once := Patch(Some(ns), proto).value;
      var twice := Patch(Some(ns), once);
      && twice.Ok?
      && twice.value[AddCallbacksKey] == NsAddCallbacks(NsAddCallbacks(Native(id)))
      && Invoke(twice.value[AddCallbacksKey], active, self, a).0 == Invoke(once[AddCallbacksKey], active, self, a).0
      && |Invoke(twice.value[AddCallbacksKey], active, self, a).1| == 2 * FunctionCount(Handlers(a))
  {
    var once := Patch(Some(ns), proto).value;
    RewriteIdempotent(active, a);
    WrapperDelegates(id, active, self, a);
    WrapperDelegates(id, active, self, RewriteArgs(active, a).0);
  }
}

=== FILE: test_object.dfy ===
/**
 * The `Test` object handed to every test function: `error()` keeps the first
 * error registered, and `done(promise, final)` classifies how the promise
 * settled against whether it was tagged as expected to reject.
 */
module TestObject {
  import opened Wrappers
  import Js

  /**
   * What a thrown or rejected value is an instance of. Test errors and bluebird's
   * aggregate errors are both `Error`s; an aggregate error lists its members.
   */
  datatype ErrClass = NotAnError | PlainError | TestError | AggregateError(items: seq<Reason>)

  /**
   * A rejection reason or thrown value: a primitive, or an object with the class
   * it is an instance of.
   */
  datatype Reason = Prim(p: Js.Val) | Obj(addr: nat, cls: ErrClass) {
    function V(): Js.Val {
      if Prim? then p else Js.Ref(addr)
    }
    function Class(): ErrClass {
      if Prim? then NotAnError else cls
    }
  }

  /** A message given to `new Error(...)`: a literal text, or a value converted to a string. */
  datatype Message = Text(s: string) | StringOf(v: Js.Val)

  /** A value passed to `test.error`: an existing value, or an `Error` created on the spot. */
  datatype ErrValue = Given(r: Reason) | NewError(message: Message)

  /** The `Test` object: whether aggregate errors are acceptable, and `_err`. */
  datatype Test = Test(aggregateError: bool, err: Option<ErrValue>)

  function NewTest(aggregateError: bool): Test {
    Test(aggregateError, None)
  }

  predicate IsUndefined(e: ErrValue) {
    e.Given? && e.r.V() == Js.Undefined
  }

  /** `e instanceof Error` */
  predicate IsErrorInstance(e: ErrValue) {
    e.NewError? || !e.r.Class().NotAnError?
  }

  /** What `error(e)` stores when it stores anything: `e` itself if an `Error`, else `new Error(e)`. */
  function Normalise(e: ErrValue): (r: ErrValue)
    ensures IsErrorInstance(r) && !IsUndefined(r)
    ensures IsErrorInstance(e) ==> r == e
  {
    if IsErrorInstance(e) then e else NewError(StringOf(e.r.V()))
  }

  /**
   * `test.error(e)`: records `e` (wrapped in an `Error` if it is not one) when it
   * is not `undefined` and nothing is recorded yet; otherwise changes nothing.
   */
  function Error(t: Test, e: ErrValue): (r: Test)
    ensures r.aggregateError == t.aggregateError
    ensures t.err.Some? || IsUndefined(e) ==> r == t
    ensures t.err.None? && !IsUndefined(e) ==> r.err == Some(Normalise(e))
    ensures r.err.Some? ==> IsErrorInstance(r.err.value) || r.err == t.err
  {
    if !IsUndefined(e) && t.err.None? then t.(err := Some(Normalise(e))) else t
  }

  /** `test.error` called with each of `es` in turn. */
  function ErrorAll(t: Test, es: seq<ErrValue>): Test
    decreases |es|
  {
    if es == [] then t else ErrorAll(Error(t, es[0]), es[1..])
  }

  /** The first value of `es` that is not `undefined`, as `error` would store it. */
  function FirstRecorded(es: seq<ErrValue>): Option<ErrValue>
    decreases |es|
  {
    if es == [] then None
    else if !IsUndefined(es[0]) then Some(Normalise(es[0]))
    else FirstRecorded(es[1..])
  }

  /**
   * After a sequence of `error` calls the recorded error is the one recorded
   * before, if any, and otherwise the first non-`undefined` value of the sequence;
   * later errors are ignored.
   */
  lemma {:induction false} ErrorAllKeepsFirst(t: Test, es: seq<ErrValue>)
    ensures ErrorAll(t, es).aggregateError == t.aggregateError
    ensures ErrorAll(t, es).err == (if t.err.Some? then t.err else FirstRecorded(es))
    decreases |es|
  {
    if es != [] {
      ErrorAllKeepsFirst(Error(t, es[0]), es[1..]);
      if t.err.Some? {
        assert Error(t, es[0]) == t;
      }
    }
  }

  /** How the promise passed to `done` settled. */
  datatype Settlement = Fulfilled | Rejected(reason: Reason)

  /** The members of an aggregate rejection that `done` registers: those that are not test errors. */
  function NonTestErrors(items: seq<Reason>): (es: seq<ErrValue>)
    ensures |es| <= |items|
    ensures forall e :: e in es ==> e.Given? && e.r in items && !e.r.Class().TestError?
    ensures forall x :: x in items && !x.Class().TestError? ==> Given(x) in es
    decreases |items|
  {
    if items == [] then []
    else (if items[0].Class().TestError? then [] else [Given(items[0])]) + NonTestErrors(items[1..])
  }

  /** An aggregate member that `done` reports: neither a test error nor `undefined`. */
  predicate Reportable(x: Reason) {
    !x.Class().TestError? && x.V() != Js.Undefined
  }

  /**
   * The filter keeps the members' order: the first error `error` records from
   * the filtered members is the first reportable member of the aggregate.
   */
  lemma {:induction false} FirstNonTestErrorRecorded(items: seq<Reason>, i: nat)
    requires i < |items| && Reportable(items[i])
    requires forall j :: 0 <= j < i ==> !Reportable(items[j])
    ensures FirstRecorded(NonTestErrors(items)) == Some(Normalise(Given(items[i])))
    decreases i
  {
    var rest := NonTestErrors(items[1..]);
    if i == 0 {
      assert NonTestErrors(items) == [Given(items[0])] + rest;
      assert (NonTestErrors(items))[1..] == rest;
    } else {
      assert !Reportable(items[0]);
      FirstNonTestErrorRecorded(items[1..], i - 1);
      if items[0].Class().TestError? {
        assert NonTestErrors(items) == rest;
      } else {
        assert NonTestErrors(items) == [Given(items[0])] + rest;
        assert (NonTestErrors(items))[1..] == rest;
        assert IsUndefined(Given(items[0]));
      }
    }
  }

  /**
   * `test.done(promise, final)`: `final` runs first (here, the errors it registers),
   * then the settlement is classified against the promise's tag, and `_done` is
   * called once, with the recorded error. Returns the Test and `_done`'s argument.
   */
  function Done(t: Test, tagged: bool, s: Settlement, finalErrors: seq<ErrValue>): (r: (Test, Option<ErrValue>))
    ensures r.1 == r.0.err
    ensures r.0.aggregateError == t.aggregateError
  {
    var t1 := ErrorAll(t, finalErrors);
    ErrorAllKeepsFirst(t, finalErrors);
    var t2 :=
      match s
      case Fulfilled =>
        if tagged then Error(t1, NewError(Text("Promise should not be resolved"))) else t1
      case Rejected(reason) =>
        if !tagged then
          Error(t1, if Js.Truthy(reason.V()) then Given(reason) else NewError(Text("Empty rejection")))
        else if reason.Class().AggregateError? && t.aggregateError then
          ErrorAllKeepsFirst(t1, NonTestErrors(reason.Class().items));
          ErrorAll(t1, NonTestErrors(reason.Class().items))
        else if !reason.Class().TestError? then Error(t1, Given(reason))
        else t1;
    (t2, t2.err)
  }

  /** The settlement is the expected one: fulfilled when untagged, rejected only with test errors when tagged. */
  ghost predicate Expected(tagged: bool, s: Settlement, aggregateOk: bool) {
    match s
    case Fulfilled => !tagged
    case Rejected(reason) =>
      tagged &&
      if reason.Class().AggregateError? && aggregateOk then
        forall x :: x in reason.Class().items ==> x.Class().TestError? || x.V() == Js.Undefined
      else reason.Class().TestError? || reason.V() == Js.Undefined
  }

  lemma {:induction false} FirstRecordedNone(es: seq<ErrValue>)
    ensures FirstRecorded(es).None? <==> forall e :: e in es ==> IsUndefined(e)
    decreases |es|
  {
    if es != [] {
      FirstRecordedNone(es[1..]);
      assert forall e :: e in es <==> e == es[0] || e in es[1..];
    }
  }

  /**
   * `done` reports success exactly when nothing was recorded before, `final`
   * registers nothing, and the promise settled as its tag says it should.
   */
  lemma DonePasses(t: Test, tagged: bool, s: Settlement, finalErrors: seq<ErrValue>)
    ensures Done(t, tagged, s, finalErrors).1.None? <==>
      && t.err.None?
      && (forall e :: e in finalErrors ==> IsUndefined(e))
      && Expected(tagged, s, t.aggregateError)
  {
    ErrorAllKeepsFirst(t, finalErrors);
    FirstRecordedNone(finalErrors);
    var t1 := ErrorAll(t, finalErrors);
    if s.Rejected? && tagged && s.reason.Class().AggregateError? && t.aggregateError {
      var es := NonTestErrors(s.reason.Class().items);
      ErrorAllKeepsFirst(t1, es);
      FirstRecordedNone(es);
      if t1.err.None? {
        if forall e :: e in es ==> IsUndefined(e) {
          forall x | x in s.reason.Class().items ensures x.Class().TestError? || x.V() == Js.Undefined {
            if !x.Class().TestError? {
              assert Given(x) in es;
            }
          }
        }
      }
    }
  }

  /** An error registered by `final` takes precedence over anything `done` itself finds. */
  lemma FinalErrorWins(t: Test, tagged: bool, s: Settlement, finalErrors: seq<ErrValue>)
    requires t.err.None? && FirstRecorded(finalErrors).Some?
    ensures Done(t, tagged, s, finalErrors).1 == FirstRecorded(finalErrors)
  {
    var t1 := ErrorAll(t, finalErrors);
    ErrorAllKeepsFirst(t, finalErrors);
    if s.Rejected? && tagged && s.reason.Class().AggregateError? && t.aggregateError {
      ErrorAllKeepsFirst(t1, NonTestErrors(s.reason.Class().items));
    }
  }

  /** A fulfilled promise that was tagged as rejecting fails with "Promise should not be resolved". */
  lemma TaggedFulfilmentFails(t: Test)
    requires t.err.None?
    ensures Done(t, true, Fulfilled, []).1 == Some(NewError(Text("Promise should not be resolved")))
  {
  }

  /** An untagged promise rejected with a falsy reason fails with "Empty rejection". */
  lemma EmptyRejection(t: Test, reason: Reason)
    requires t.err.None? && !Js.Truthy(reason.V())
    ensures Done(t, false, Rejected(reason), []).1 == Some(NewError(Text("Empty rejection")))
  {
  }

  /**
   * A tagged promise rejected with an aggregate the test accepts, with nothing
   * recorded before and nothing registered by `final`, reports the first member
   * that is neither a test error nor `undefined`.
   */
  lemma AggregateReportsFirstNonTestError(t: Test, items: seq<Reason>, addr: nat, finalErrors: seq<ErrValue>, i: nat)
    requires t.err.None? && t.aggregateError
    requires forall e :: e in finalErrors ==> IsUndefined(e)
    requires i < |items| && Reportable(items[i])
    requires forall j :: 0 <= j < i ==> !Reportable(items[j])
    ensures Done(t, true, Rejected(Obj(addr, AggregateError(items))), finalErrors).1 == Some(Normalise(Given(items[i])))
  {
    ErrorAllKeepsFirst(t, finalErrors);
    FirstRecordedNone(finalErrors);
    var t1 := ErrorAll(t, finalErrors);
    ErrorAllKeepsFirst(t1, NonTestErrors(items));
    FirstNonTestErrorRecorded(items, i);
  }
}

=== FILE: utils.dfy ===
/**
 * The core of the test utilities object: the context-id counter behind
 * `runInContext`, promise and constructor recognition, and the reject-status tag
 * that marks a promise (or handler) as expected to reject.
 */
module Utils {
  import opened Wrappers
  import Js

  /** The property holding the reject-status tag. */
  const RejectStatusKey := "__clsBluebirdTestRejectStatus"

  /** The first `_id` given to a context. */
  const InitialNextId: nat := 1

  /** The JavaScript errors the utilities can throw. */
  datatype JsError = TypeError

  /**
   * One `runInContext(fn)` call: the fresh context gets `_id` equal to the counter,
   * which then moves on by one. Returns the new counter and the id given.
   */
  function RunInContext(nextId: nat): (r: (nat, nat))
    ensures r.1 == nextId && r.0 == r.1 + 1
  {
    (nextId + 1, nextId)
  }

  /** `n` successive `runInContext` calls from counter `start`: the ids given, in order. */
  method RunSuccessive(start: nat, n: nat) returns (next: nat, ids: seq<nat>)
    ensures |ids| == n && next == start + n
    ensures forall i :: 0 <= i < n ==> ids[i] == start + i
    ensures forall i, j :: 0 <= i < j < n ==> ids[i] < ids[j]
  {
    next := start;
    ids := [];
    while |ids| < n
      invariant |ids| <= n
      invariant next == start + |ids|
      invariant forall i :: 0 <= i < |ids| ==> ids[i] == start + i
    {
      var (next', id) := RunInContext(next);
      ids := ids + [id];
      next := next';
    }
  }

  /** `isPromise(value)`: truthy with a callable `then`. */
  predicate IsPromise(h: Js.Heap, v: Js.Val) {
    Js.Truthy(v) && Js.IsFunction(h, Js.Get(h, v, "then"))
  }

  /** Only objects can be promises: every primitive lacks a callable `then`. */
  lemma PromisesAreObjects(h: Js.Heap, v: Js.Val)
    ensures IsPromise(h, v) ==> v.Ref?
  {
  }

  /**
   * `isBluebirdCtor(value)`: a function with a truthy `prototype` whose
   * `_addCallbacks` is a function, the very primitive the patch wraps.
   */
  predicate IsBluebirdCtor(h: Js.Heap, v: Js.Val) {
    var proto := Js.Get(h, v, "prototype");
    Js.IsFunction(h, v) && Js.Truthy(proto) && Js.IsFunction(h, Js.Get(h, proto, "_addCallbacks"))
  }

  /** A recognised constructor's prototype is an object carrying a callable `_addCallbacks`. */
  lemma BluebirdCtorHasPrimitive(h: Js.Heap, v: Js.Val)
    requires IsBluebirdCtor(h, v)
    ensures Js.IsConstructor(h, v)
    ensures var proto := Js.Get(h, v, "prototype");
      proto.Ref? && Js.IsFunction(h, Js.Get(h, proto, "_addCallbacks"))
  {
  }

  /**
   * `isBluebirdPromise(value)` as written: its guard tests the `isPromise` method
   * itself, which is always truthy, so it never returns early; reading
   * `value.constructor` then throws for `undefined` and `null`.
   */
  function IsBluebirdPromiseAsWritten(h: Js.Heap, v: Js.Val): (r: Result<bool, JsError>)
    ensures r.Err? <==> v == Js.Undefined || v == Js.Null
    ensures r.Ok? ==> r.value == IsBluebirdCtor(h, Js.Get(h, v, "constructor"))
  {
    if v == Js.Undefined || v == Js.Null then Err(TypeError)
    else Ok(IsBluebirdCtor(h, Js.Get(h, v, "constructor")))
  }

  /** `isBluebirdPromise(value)` with the guard calling `isPromise(value)`, as its comment describes. */
  function IsBluebirdPromise(h: Js.Heap, v: Js.Val): (r: bool)
    ensures r ==> IsPromise(h, v) && v.Ref?
    ensures IsPromise(h, v) ==> IsBluebirdPromiseAsWritten(h, v) == Ok(r)
  {
    IsPromise(h, v) && IsBluebirdCtor(h, Js.Get(h, v, "constructor"))
  }

  /**
   * A heap where object 3 is a plain object whose `constructor` is a bluebird
   * constructor (object 0, prototype object 1 with callable `_addCallbacks`,
   * object 2) but which has no `then`.
   */
  function NonPromiseWithBluebirdCtor(): Js.Heap {
    map[
      0 := Js.Object(true, map["prototype" := Js.Ref(1)], []),
      1 := Js.Object(false, map["_addCallbacks" := Js.Ref(2)], []),
      2 := Js.Object(true, map[], []),
      3 := Js.Object(false, map["constructor" := Js.Ref(0)], [])
    ]
  }

  /**
   * The as-written guard lets a non-promise through (reported as a bluebird
   * promise) and throws on `null`, where the intended check answers false.
   */
  lemma IsBluebirdPromiseGuardNeverFires()
    ensures var h := NonPromiseWithBluebirdCtor();
      && IsBluebirdPromiseAsWritten(h, Js.Ref(3)) == Ok(true)
      && !IsBluebirdPromise(h, Js.Ref(3))
    ensures IsBluebirdPromiseAsWritten(map[], Js.Null).Err? && !IsBluebirdPromise(map[], Js.Null)
  {
    var h := NonPromiseWithBluebirdCtor();
    assert Js.Get(h, Js.Ref(3), "constructor") == Js.Ref(0);
    assert Js.Get(h, Js.Ref(0), "prototype") == Js.Ref(1);
    assert Js.Get(h, Js.Ref(1), "_addCallbacks") == Js.Ref(2);
    assert Js.Get(h, Js.Ref(3), "then") == Js.Undefined;
  }

  /** `getRejectStatus(promise)`: false for a falsy value, otherwise the truthiness of the tag. */
  predicate GetRejectStatus(h: Js.Heap, p: Js.Val) {
    Js.Truthy(p) && Js.Truthy(Js.Get(h, p, RejectStatusKey))
  }

  /**
   * `setRejectStatus(promise)`: tags `promise` and returns it; assignment to
   * `undefined` or `null` throws, and on any other primitive it is silently lost.
   */
  function SetRejectStatus(h: Js.Heap, p: Js.Val): (r: Result<(Js.Heap, Js.Val), JsError>)
    ensures r.Err? <==> p == Js.Undefined || p == Js.Null
    ensures r.Ok? ==> r.value.1 == p
    ensures r.Ok? && p.Ref? ==> GetRejectStatus(r.value.0, p)
    ensures r.Ok? && !p.Ref? ==> r.value.0 == h
    ensures r.Ok? ==> forall a :: a in h && (!p.Ref? || a != p.addr) ==> a in r.value.0 && r.value.0[a] == h[a]
  {
    if p == Js.Undefined || p == Js.Null then Err(TypeError)
    else Ok((Js.Put(h, p, RejectStatusKey, Js.Bool(true)), p))
  }

  /**
   * `inheritRejectStatus(target, source)`: gives a truthy `target` the reject status
   * of `source` and returns `target`; a falsy target is left alone.
   */
  function InheritRejectStatus(h: Js.Heap, target: Js.Val, source: Js.Val): (r: (Js.Heap, Js.Val))
    ensures r.1 == target
    ensures target.Ref? ==> GetRejectStatus(r.0, target) == GetRejectStatus(h, source)
    ensures !target.Ref? ==> r.0 == h
    ensures forall a :: a in h && (!target.Ref? || a != target.addr) ==> a in r.0 && r.0[a] == h[a]
  {
    if Js.Truthy(target) then (Js.Put(h, target, RejectStatusKey, Js.Bool(GetRejectStatus(h, source))), target)
    else (h, target)
  }
}

=== FILE: wrappers.dfy ===
/** Option and Result datatypes shared by every module of the model. */
module Wrappers {

  /** A value that may be absent (JavaScript's `undefined`). */
  datatype Option<+T> = None | Some(value: T) {
    function GetOr(default: T): T {
      match this
      case Some(v) => v
      case None => default
    }
  }

  /** Either a value or a thrown JavaScript error. */
  datatype Result<+R, +E> = Ok(value: R) | Err(error: E)
}
